=== FILE: README.md ===
# Graph-Generator dashboard core, modelled in Dafny

Graph-Generator turns a JSON configuration into a 1600 x 900 PNG dashboard. The dashboard has:

- a gradient background and a white card with a drop shadow;
- a logo in the top-right corner;
- a title, a subtitle and a footer;
- a chart drawn by the plotting library inside a rounded container.

This project models the decision logic around the drawing. Each part is a pure function or a small method, and every part has a contract. The parts are:

- **Slug** (`slugify`): drop unsafe characters, strip, collapse whitespace runs to one `-`, lowercase.
- **ConfigValidation** (`validate_config` and its per-type helpers): an ordered list of checks where the first failure decides the error.
  - The configuration is an immutable JSON datatype (`JsonValues.Json`).
  - The result is `Pass` or `Fail(error)`.
- **FileNames** (`generate_unique_filename`): the search for `base.png`, `base-1.png`, ... over a finite set of existing paths.
  - `os.path.join` on POSIX is in `PathJoin`.
  - `str(k)` is in `Decimal.NatToString`.
- **Layout** (`layout_utils.py`): the fixed integer geometry of every region, and text centring.
- **Constants** (`constants.py`): grid, canvas, palettes, CBD colours, supported chart types, font sizes and layout configuration.
- **Charts** (`ChartFactory` and the constructor of `BaseChart`): the five-way dispatch on the `type` tag, with its rejection paths.
- **StackedBar** (`StackedBarChart`):
  - the colour of each category;
  - segment stacking;
  - the strict "more than 10% of the bar" value-label rule;
  - the legend.
- **MathUtils** (`math_utils.py`): `calculate_total_values` and `normalize_values` over exact reals.
- **UiUtils** (`ui_utils.py`): the size and offset arithmetic of `add_shadow`, `create_rounded_rectangle` and `load_and_resize_logo`.
- **Renderer** (`DashboardRenderer.render_dashboard`): an abstract compositor. It returns the ordered list of paint operations, each with a kind, an origin and a size.

Some inputs come from libraries, so they are parameters of the model:

- the chart drawing, which yields the chart image's native size or an error;
- the file system seen by the logo loader;
- the logo's scaled width;
- the measured footer width.

## Model

| member | source | states |
|---|---|---|
| Slug.Slugify | src/utils/text_utils.py:10-14 | The slug contains only `a`-`z`, `0`-`9` and `-`, and it is never longer than the title. |
| Slug.SlugifyIdempotent | src/utils/text_utils.py:12-14 | Slugifying a slug changes nothing: `slugify(slugify(x)) == slugify(x)`. |
| Slug.SlugifyFixesSlugs | src/utils/text_utils.py:12-14 | Every string made only of slug characters is its own slug. |
| Slug.SlugOfSpacedWords | src/utils/text_utils.py:12-14 | A title of words separated by whitespace runs, with optional leading and trailing whitespace, slugifies to the lowercased words joined by exactly one `-` each. This is a reference description independent of the three-step pipeline. |
| Slug.SlugIgnoresUnsafe | src/utils/text_utils.py:12 | Characters outside letters, digits, whitespace and `-` play no part in the slug. |
| Slug.RemoveUnsafeConcat | src/utils/text_utils.py:12 | The character filter works character by character: filtering a concatenation is concatenating the filtered parts. |
| Slug.HyphenFreeTitleSlug | src/utils/text_utils.py:12-13 | For a title without `-`, the slug has no leading, trailing or doubled `-`. |
| Slug.CollapseNoDoubleHyphen | src/utils/text_utils.py:13 | Collapsing whitespace runs in hyphen-free text never produces two adjacent `-`. |
| Slug.CollapseEnds | src/utils/text_utils.py:13 | The first (last) character becomes `-` where the text starts (ends) with whitespace, and is kept otherwise. |
| Slug.CollapseSpaceFree | src/utils/text_utils.py:13 | Text without whitespace is left unchanged by the run collapsing. |
| Slug.SlugOfExampleTitle | src/utils/text_utils.py:10-14 | "CBD Market!! 2024" slugifies to "cbd-market-2024". |
| Slug.SlugKeepsHyphens | src/utils/text_utils.py:12-13 | Hyphens already in the title are kept verbatim: "a - b" slugifies to "a---b". |
| ConfigValidation.RequireFields | src/utils/text_utils.py:19-22 | The required-field loop passes exactly when every name is present. Otherwise it reports the first absent name, with its dotted path. |
| ConfigValidation.CheckRowSeq | src/utils/text_utils.py:58-60 | The row loop passes exactly when every row has a length equal to `len(categories)`. |
| ConfigValidation.ValidateIffWellFormed | src/utils/text_utils.py:17-41 | `validate_config` returns normally exactly when all of these hold: `title` and `graph` are present; `graph` has `type` and `data`; the type is one of the five tags; the data has the shape that type requires. |
| ConfigValidation.FirstFailureOrder | src/utils/text_utils.py:19-41 | A missing `title` is reported before a missing `graph`, then `graph.type`, then `graph.data`. The tag is examined only after that, so an unknown tag with missing data reports the missing data. |
| ConfigValidation.AcceptedTagsAreSupported | src/utils/text_utils.py:30-41 | A tag passes for some payload exactly when it is one of the five supported tags. Any other tag fails with "Unsupported chart type", whatever the payload. |
| ConfigValidation.ValidateConfig | src/utils/text_utils.py:17-41 | A passing configuration has `title`, an object `graph` with `type` and `data`, and a supported tag. A `graph` that is not an object is reported as such. An "Unsupported chart type" failure carries the configuration's own tag, which is not one of the five. |
| ConfigValidation.ValidateByType | src/utils/text_utils.py:33-41 | The dispatch fails with "Unsupported chart type" exactly when the tag is not one of the five supported tags. |
| ConfigValidation.ValidateStackedBarData | src/utils/text_utils.py:44-60 | A non-object payload is rejected. Otherwise the first absent field of `years`, `categories`, `values` is reported with its dotted path. The values/years mismatch is reported exactly when all three are present and measurable and `len(values) != len(years)`. |
| ConfigValidation.ValidateLinearData | src/utils/text_utils.py:63-74 | The line/area/bar check passes exactly when `labels` and `values` are present with equal length. Otherwise the first absent field of `labels`, `values` is reported with its dotted path. |
| ConfigValidation.ValidatePieData | src/utils/text_utils.py:77-88 | The pie check passes exactly when `labels` and `values` are present with equal length. Otherwise the first absent field of `labels`, `values` is reported with its dotted path. |
| ConfigValidation.StackedBarMeaning | src/utils/text_utils.py:44-60 | The stacked-bar check accepts exactly payloads that have `years`, `categories` and `values`, with `len(values) == len(years)` and every row as long as `categories`. |
| ConfigValidation.CheckRowsMeaning | src/utils/text_utils.py:58-60 | Iterating `values`, whether it is an array, a string or an object, passes exactly when every element it yields has a length equal to `len(categories)`. |
| ConfigValidation.LabelledMeaning | src/utils/text_utils.py:63-88 | The line/area/bar and pie checks accept exactly the payloads with `labels` and `values` of equal length. |
| ConfigValidation.LinearAndPieAgree | src/utils/text_utils.py:63-88 | Line, area, bar and pie payloads are held to identical rules, with no sign or numeric check. The two source validators have identical bodies, so this holds by their definitions. |
| ConfigValidation.EmptyRectangularDataPasses | src/utils/text_utils.py:44-60 | Rectangular data passes even when it is empty: no years, or no categories. |
| Decimal.NatToString | src/utils/file_utils.py:30 | `str(k)` is non-empty, all digits, has no leading zero, and is "0" only for 0. |
| Decimal.ParseNatToString | src/utils/file_utils.py:30 | Reading back the decimal text of `k` gives `k`. |
| Decimal.NatToStringInjective | src/utils/file_utils.py:30 | Different counters are written differently. |
| FileNames.PathJoin | src/utils/file_utils.py:26 | POSIX `os.path.join(dir, name)`: an absolute name replaces the directory, and otherwise exactly one `/` separates the two unless the directory is empty or ends in `/`. |
| FileNames.FileNameInjective | src/utils/file_utils.py:25-30 | Different attempt numbers name different files. |
| FileNames.CandidateInjective | src/utils/file_utils.py:25-31 | Candidate paths for attempts `j` and `k` are equal exactly when `j == k`. |
| FileNames.TakenBound | src/utils/file_utils.py:29-32 | The first `n` candidates are `n` different paths, so if they all exist, at least `n` paths exist. This bounds the loop, so it terminates for every finite set of existing paths. |
| FileNames.GenerateUniqueFilename | src/utils/file_utils.py:23-34 | The result is never an existing path. It is `dir/base.png` whenever that is free; otherwise it is the first free `base-k.png`, with every earlier attempt existing. |
| FileNames.RepeatedCalls | src/utils/file_utils.py:23-34 | Calling the generator repeatedly, each time adding its result to the existing paths, yields `base.png`, `base-1.png`, `base-2.png`, ... in that order. |
| Layout.LayoutPositions | src/utils/layout_utils.py:14-35 | The layout is exact:<br>- title (64,64), subtitle (64,128), logo (1336,64);<br>- graph (64,256) of size 1472x388, footer at y = 804.<br>The graph's left and right margins are equal and equal the configured graph margin. The logo box's right edge equals the graph's, at 1536. Title, subtitle, graph and footer come in vertical order, with 644 <= footer_y. |
| Layout.CardDimensions | src/utils/layout_utils.py:38-50 | The card is 1536x836 at (32,32). Its margin is the configured card margin on all four sides. |
| Layout.GraphContainerDimensions | src/utils/layout_utils.py:53-65 | The container is the graph grown by 16 on every side, at offset -16 on both axes, so the graph sits at its centre. |
| Layout.CenterTextHorizontally | src/utils/layout_utils.py:68-72 | The position is the floor of `(canvas_width - 10*len(text)) / 2`, negative results included. The space left of the text equals the space right of it or is one pixel less. |
| Layout.FloorHalfUnique | src/utils/layout_utils.py:72 | The centring position is the only integer satisfying the floor-half bounds. |
| Layout.CenterTextExamples | src/utils/layout_utils.py:72 | Python floors negative positions: 161 characters on a 1605-wide canvas give -3, not -2. |
| Constants.CanvasOnGrid | src/config/constants.py:7-9 | The grid unit is 8 and the canvas is 1600x900. The width is 200 grid units; the height (112.5 units) is not a grid multiple. The aspect ratio is 16:9. |
| Constants.LayoutConfigValues | src/config/constants.py:52-59 | Card margin 32 (4 grid units), graph margin 64 (8 grid units), border radius 16, shadow blur 16, shadow offset (0,4), logo height ratio 0.15. |
| Constants.PalettesHaveFiveColours | src/config/constants.py:13-18 | Every chart palette has exactly five colours. |
| Constants.SupportedTypesDistinct | src/config/constants.py:42 | There are exactly five supported chart types, all distinct. |
| Charts.CreateChart | src/charts/chart_factory.py:29-42 | "Unsupported chart type" is raised exactly when `config.get('type')` is absent or not one of the five supported tags. A supported tag without `data` fails in the chart constructor. Otherwise the chart carries the tag's class, the data, the config and the requested size. |
| Charts.TableMatchesSupportedTypes | src/charts/chart_factory.py:21-27 | The dispatch table's keys are exactly the supported types, and each key maps to the class that carries it. |
| Charts.TagRoundTrip | src/charts/chart_factory.py:21-27 | Tags and chart classes correspond one-to-one. |
| Charts.NeverNotImplemented | src/charts/chart_factory.py:38-40 | The "not implemented" branch is unreachable. |
| Charts.RenderChart | src/charts/chart_factory.py:44-48 | `render_chart` is `create_chart` followed by the drawing of that chart. A failure of either is reported, and a success yields the drawing's image. |
| Charts.GetSupportedTypes | src/charts/chart_factory.py:50-53 | The supported-types list equals the constant list and names every chart class. |
| Charts.ValidatedConfigBuildsChart | src/charts/chart_factory.py:30-42 | Every configuration the validator accepts yields a chart from the factory, carrying the validated data. |
| StackedBar.NormaliseCategory | src/charts/stacked_bar_chart.py:79 | The lookup key has the same length as the category name. |
| StackedBar.DefaultPalette | src/charts/base_chart.py:46-48 | The default palette is the five-colour primary palette. |
| StackedBar.GetCategoryColors | src/charts/stacked_bar_chart.py:74-85 | One colour per category, in order. The colour is the CBD colour of the normalised name on a hit; on a miss it is the primary palette entry at the category's position modulo 5. |
| StackedBar.CbdKeysAreNormalised | src/config/constants.py:21-26 | The CBD colour keys are already in normalised form: lowercase, with `_` for spaces. |
| StackedBar.CbdCategoryColour | src/charts/stacked_bar_chart.py:79-81 | The category "CBD Oil" gets the CBD colour `#1F3B4D`, at any position. |
| StackedBar.PaletteIndexIsPosition | src/charts/stacked_bar_chart.py:84 | On a miss the palette index is the position modulo 5, not a count of misses, so it repeats every five categories. |
| StackedBar.ColourFromKnownSets | src/charts/stacked_bar_chart.py:77-84 | Every category colour is a CBD colour or a primary palette colour. |
| StackedBar.StackBars | src/charts/stacked_bar_chart.py:37-46 | Segment `i` of bar `j` has height `values[j][i]` and starts at `sum(values[j][:i])`. |
| StackedBar.SegmentsAreContiguous | src/charts/stacked_bar_chart.py:41-46 | Consecutive segments touch: each starts where the one below it ends. |
| StackedBar.StackTopIsTotal | src/charts/stacked_bar_chart.py:41-46 | The top of each bar is that year's total, as `calculate_total_values` computes it. |
| StackedBar.LabelRuleIsStrictTenth | src/charts/stacked_bar_chart.py:92-100 | For a positive total, a label is shown exactly when the height is positive and ten times the height exceeds the total. |
| StackedBar.ExactlyTenPercentHasNoLabel | src/charts/stacked_bar_chart.py:100 | A segment of exactly 10% of its bar gets no label. |
| StackedBar.NonNegativeLabelRule | src/charts/stacked_bar_chart.py:87-100 | For non-negative data, a segment is labelled exactly when it is positive and more than a tenth of its bar. |
| StackedBar.ValueLabels | src/charts/stacked_bar_chart.py:87-103 | There is one label decision per segment. A shown label sits in bar `j`, strictly inside its segment, and shows the segment's value. |
| StackedBar.Legend | src/charts/stacked_bar_chart.py:63-64 | The legend has one entry per category, in category order, each in its category's colour. |
| StackedBar.CreateStackedBar | src/charts/stacked_bar_chart.py:19-72 | The method fails exactly when there are no years but some categories. Otherwise the plot has these parts:<br>- ticks 0..n-1, labelled with the years;<br>- the category colours;<br>- the stacked segments;<br>- the value labels;<br>- the legend. |
| MathUtils.CalculateTotalValues | src/utils/math_utils.py:13-15 | There is one total per period, and each total is the sum of that period's values. An empty period gives 0. |
| MathUtils.TotalsSplit | src/utils/math_utils.py:15 | The total of a period split in two parts is the sum of the parts' totals. |
| MathUtils.SumBoundsPrefix | src/utils/math_utils.py:15 | For non-negative values, every partial sum lies between 0 and the total. |
| MathUtils.NormalizeValues | src/utils/math_utils.py:18-27 | Length is preserved and an empty list stays empty. A maximum of 0 gives all zeros; otherwise each result is the value over the maximum. |
| MathUtils.NormalizedInUnitInterval | src/utils/math_utils.py:23-27 | For non-negative input with a positive maximum, every result lies in [0,1] and some result is exactly 1. |
| MathUtils.NormalizedMaxIsOne | src/utils/math_utils.py:23-27 | After normalising by a positive maximum, the largest value is 1. |
| MathUtils.NormalizeIdempotent | src/utils/math_utils.py:18-27 | Normalising normalised data changes nothing. |
| UiUtils.AddShadow | src/utils/ui_utils.py:96-121 | The shadow canvas is `(w + ox + 2b) x (h + oy + 2b)`, and creating it fails exactly when either side is negative. The image is pasted at (b,b). The shadow rectangle starts at (b,b) and its corners differ by exactly the image's size, so the offset only enlarges the canvas. |
| UiUtils.ShadowContainsImage | src/utils/ui_utils.py:100-119 | With a non-negative offset the pasted image lies inside the canvas, leaving `b` pixels on the near sides and `b` plus the offset on the far sides. |
| UiUtils.CreateRoundedRectangle | src/utils/ui_utils.py:124-139 | The result is an image of exactly width x height. Creation fails for a negative size, and for an empty one whose bounding box is inverted. |
| UiUtils.DefaultMaxHeightIsFifteenPercent | src/utils/ui_utils.py:22-24 | The default logo height limit is 135, i.e. 15% of the canvas height. |
| UiUtils.LoadAndResizeLogo | src/utils/ui_utils.py:16-41 | The result is `None` for an empty path, a nonexistent path, or an unreadable file. A logo no taller than the limit keeps its size; a taller one gets exactly the limit as its height. For a readable file it is `None` exactly when the logo is taller than the limit and the resize target has a side that is not positive (a limit of 0 or below, or a scaled width of 0), which the imaging library refuses and the loader catches. |
| UiUtils.LogoReloadKeepsSize | src/utils/ui_utils.py:33-38 | Loading an already loaded logo with the same limit keeps its size. |
| Renderer.ContainerDimensions | src/ui/dashboard_renderer.py:180-192 | The renderer's own container computation agrees with the layout module's. |
| Renderer.MainCardOp | src/ui/dashboard_renderer.py:45-69 | The card with its shadow is pasted at (16,16) with size 1568x872. |
| Renderer.LogoOps | src/ui/dashboard_renderer.py:71-82 | The logo is pasted exactly when `logo_path` is present and non-empty and the loader returns an image. It is pasted once, at (1336,64), at the loaded size. |
| Renderer.TitleOps | src/ui/dashboard_renderer.py:84-109 | The title is always drawn first, at (64,64) in the title font size. The subtitle follows it, at (64,128) in the subtitle font size, exactly when it is non-empty. |
| Renderer.ChartOps | src/ui/dashboard_renderer.py:113-156 | The container is pasted first at (48,240), sized 1504x420. Then the chart is pasted at (64,256), sized 1472x388, resampled exactly when its native size differs. |
| Renderer.FooterOps | src/ui/dashboard_renderer.py:158-178 | The footer is drawn exactly when it is non-empty: at y = 804, in the footer font size, at `x = (1600 - text_width) // 2`. |
| Renderer.RenderDashboard | src/ui/dashboard_renderer.py:28-43 | Paint order is background, card, logo, title, subtitle, graph container, graph, footer. The presence of each step:<br>- the logo is present exactly when it loaded;<br>- the subtitle and the footer exactly when non-empty;<br>- a chart failure makes the whole render fail.<br>Every operation is placed as designed, and the graph is always composited at the graph size. |
| Renderer.ComposeMeaning | src/ui/dashboard_renderer.py:35-41 | The composed operations are in paint order, contain the mandatory stages, contain the optional stages exactly under their conditions, and are placed as designed. |
| Renderer.PlacementInPixels | src/ui/dashboard_renderer.py:63-171 | The placements in pixels:<br>- the card surface lands at the card margin, because the -16 paste offset cancels the shadow's blur inset;<br>- the logo is at (1336,64);<br>- the container is at (48,240), sized 1504x420;<br>- the graph is at (64,256), sized 1472x388, and resampled exactly when its native size differs;<br>- the footer is at y = 804, with x = `(1600 - text_width) // 2`. |

## Left out

- Pixels and drawing are not modelled: the gradient background colours, rounded-corner rasterisation, Gaussian blur, alpha compositing, LANCZOS resampling, fonts and their fallbacks, and all plotting-library styling and rendering. Only sizes, origins and the order of paint operations are kept.
- The line, area, bar and pie chart classes draw entirely through the plotting library: value-label offsets, trend lines, pie percentages and label formatting. Only their construction through the factory is modelled.
- Text measurement is left out. The footer's measured width is an input of `Renderer.RenderDashboard`.
- The logo's new width `int(width * ratio)` is a float computation. It is an input (`scaledWidth` / `logoWidth`).
- The memoisation caches (`lru_cache`, the font cache) do not change results and are not modelled.
- `load_config`, `ensure_output_directory`, `get_relative_path`, `round_to_decimal`, src/core/app.py and generate_chart.py are left out. They are file I/O, CLI orchestration, or outside the core. `os.path.exists` is the finite set of existing paths.
- Error messages are modelled as error constructors carrying the field path or tag, not as formatted strings.
- ConfigValidation.ValidateConfig: a `graph` or `graph.data` that is not an object is reported as `NotAnObject`. Python would instead do one of two things:
  - run a substring or list-membership test, leading to a "missing field" error or a later TypeError;
  - raise a TypeError directly.
  The configuration itself is a JSON object (`map<string, Json>`). A top-level value that is not an object, such as the list `["title", "graph"]`, is outside the model. Python rejects every such value: it fails the membership test, or raises TypeError at `config['graph']`.
  For object configurations the model is exact.
- Renderer.RenderDashboard takes a typed configuration: the title as a string, the subtitle and footer defaulting to "", and an optional logo path string. A missing `title`, which Python reports as a KeyError while drawing, is therefore outside the model; `validate_config` rejects it first.
- Renderer.RenderDashboard assumes that a logo whose header the loader reads also has decodable pixel data. Python decodes an RGBA logo within the height limit only when `canvas.paste` uses it, outside the loader's `try`. So a logo with truncated pixel data makes `render_dashboard` raise OSError, while the model pastes it and succeeds.
- Renderer.RenderDashboard: the background and card steps cannot fail in the model. Their sizes are fixed, positive constants.
- StackedBar.CreateStackedBar takes typed data: one row per year, one real per category, and string categories. The validator checks only lengths, so it accepts data this type excludes. Non-numeric values, which numpy would reject or coerce, are outside the model. A non-string category (for example `2023`) makes `category.lower()` raise AttributeError; that failure is not modelled.
- StackedBar.GetCategoryColors takes categories as strings. A non-string category makes `category.lower()` raise AttributeError, and that error path is not modelled.
- StackedBar.NormaliseCategory lowercases ASCII letters only. This decides every CBD key lookup exactly as `str.lower` does, because the keys hold only ASCII lowercase letters and `_`. The only non-ASCII character that lowercases into ASCII is the Kelvin sign (to `k`), and no key contains `k`.
- Python floats are idealised as exact reals in MathUtils and in the stacked-bar sums and ratios; there is no IEEE-754 rounding, overflow or NaN. A zero bar total is modelled as numpy's infinite ratio, so a positive segment over it is labelled.
- MathUtils.NormalizeIdempotent requires a non-negative maximum. With a negative maximum, dividing by it flips every sign, so a second normalisation can divide by a different maximum.
- Charts.RenderChart takes the drawing as a function parameter. The drawing is plotting-library code.

=== FILE: charts.dfy ===
/** The chart-type dispatch of src/charts/chart_factory.py (`ChartFactory`) and the
    construction step of src/charts/base_chart.py. */
module Charts {
  import opened Wrappers
  import opened JsonValues
  import opened Constants
  import ConfigValidation

  /** The five chart classes the factory can build. */
  datatype ChartKind = StackedBar | Line | Pie | Area | Bar

  /** The configuration tag naming each chart class. */
  function Tag(k: ChartKind): string
  {
    match k
    case StackedBar => "stacked_bar"
    case Line => "line"
    case Pie => "pie"
    case Area => "area"
    case Bar => "bar"
  }

  /** `_chart_classes`: tag to chart class. */
  const CHART_CLASSES: map<string, ChartKind> := map[
    "stacked_bar" := StackedBar,
    "line" := Line,
    "pie" := Pie,
    "area" := Area,
    "bar" := Bar
  ]

  /** A constructed chart (`BaseChart.__init__`): its class, the graph configuration, the
      `data` entry read from it, and the requested size. */
  datatype Chart = Chart(kind: ChartKind, config: map<string, Json>, data: Json, width: int, height: int)

  /** The errors `create_chart` can raise. `tag` is the result of `config.get('type')`,
      `None` when the key is absent. */
  datatype ChartError =
    | UnsupportedChartType(tag: Option<Json>)
    | NotImplemented(name: string)
    | MissingData

  /** `chart_type not in SUPPORTED_CHART_TYPES`: list membership compares by equality, so
      only a string equal to one of the five tags passes. */
  predicate IsSupported(tag: Option<Json>)
  {
    tag.Some? && ConfigValidation.IsSupportedTag(tag.value)
  }

  function Get(config: map<string, Json>, key: string): (r: Option<Json>)
    ensures r.Some? <==> key in config
    ensures r.Some? ==> r.value == config[key]
  {
    if key in config then Some(config[key]) else None
  }

  /** `create_chart`: reject a tag outside the supported list, look up the class, and
      construct it, which reads `config['data']`. */
  function CreateChart(config: map<string, Json>, width: int, height: int): (r: Result<Chart, ChartError>)
    ensures !IsSupported(Get(config, "type")) <==> r == Failure(UnsupportedChartType(Get(config, "type")))
    ensures IsSupported(Get(config, "type")) && "data" !in config <==> r == Failure(MissingData)
    ensures r.Success? ==> && Tag(r.value.kind) == config["type"].s
                           && r.value.data == config["data"]
                           && r.value.config == config
                           && r.value.width == width && r.value.height == height
  {
    var tag := Get(config, "type");
    if !IsSupported(tag) then Failure(UnsupportedChartType(tag))
    else
      var name := tag.value.s;
      if name !in CHART_CLASSES then Failure(NotImplemented(name))
      else if "data" !in config then Failure(MissingData)
      else Success(Chart(CHART_CLASSES[name], config, config["data"], width, height))
  }

  /** Why `render_chart` raised: construction failed, or the drawing did. */
  datatype RenderError<E> = CreateFailed(reason: ChartError) | DrawFailed(cause: E)

  /** `render_chart`: build the chart, then render it. Rendering draws through the plotting
      library, so it is a parameter here: `draw` returns the image it produced, or the
      error it raised. */
  function RenderChart<Image, E>(config: map<string, Json>, width: int, height: int,
                                  draw: Chart -> Result<Image, E>): (r: Result<Image, RenderError<E>>)
    ensures CreateChart(config, width, height).Failure? ==>
      r == Failure(CreateFailed(CreateChart(config, width, height).error))
    ensures CreateChart(config, width, height).Success? ==>
      var chart := CreateChart(config, width, height).value;
      && (draw(chart).Success? ==> r == Success(draw(chart).value))
      && (draw(chart).Failure? ==> r == Failure(DrawFailed(draw(chart).error)))
  {
    match CreateChart(config, width, height)
    case Failure(e) => Failure(CreateFailed(e))
    case Success(chart) =>
      match draw(chart)
      case Failure(cause) => Failure(DrawFailed(cause))
      case Success(image) => Success(image)
  }

  /** `get_supported_types`: a copy of the supported list. */
  function GetSupportedTypes(): (r: seq<string>)
    ensures r == SUPPORTED_CHART_TYPES
    ensures |r| == 5 && forall k: ChartKind :: Tag(k) in r
  {
    SUPPORTED_CHART_TYPES
  }

  // ---------------------------------------------------------------------------------
  // Properties.

  /** The dispatch table covers exactly the supported tags, and each tag maps to the class
      that carries it. */
  lemma TableMatchesSupportedTypes()
    ensures CHART_CLASSES.Keys == set t | t in SUPPORTED_CHART_TYPES
    ensures forall t :: t in CHART_CLASSES ==> Tag(CHART_CLASSES[t]) == t
  {
  }

  /** Tags and classes are in one-to-one correspondence. */
  lemma TagRoundTrip(k: ChartKind)
    ensures Tag(k) in CHART_CLASSES && CHART_CLASSES[Tag(k)] == k
  {
  }

  /** The "not implemented" error is never raised: every supported tag has a class. */
  lemma NeverNotImplemented(config: map<string, Json>, width: int, height: int)
    ensures !CreateChart(config, width, height).Failure? || !CreateChart(config, width, height).error.NotImplemented?
  {
    TableMatchesSupportedTypes();
  }

  /** A configuration `validate_config` accepts always yields a chart: the validator's tag
      and data checks subsume the factory's. */
  lemma ValidatedConfigBuildsChart(config: map<string, Json>, width: int, height: int)
    requires ConfigValidation.ValidateConfig(config).Pass?
    ensures "graph" in config && config["graph"].JObj?
    ensures CreateChart(config["graph"].fields, width, height).Success?
    ensures CreateChart(config["graph"].fields, width, height).value.data == config["graph"].fields["data"]
  {
    ConfigValidation.ValidateIffWellFormed(config);
    var g := config["graph"].fields;
    assert g["type"].JStr? && g["type"].s in SUPPORTED_CHART_TYPES by {
      if g["type"] == JStr("stacked_bar") {
      } else {
        assert ConfigValidation.IsSupportedTag(g["type"]);
      }
    }
    TableMatchesSupportedTypes();
  }
}

=== FILE: constants.dfy ===
/** Design constants of the chart generator (src/config/constants.py). */
module Constants {

  /** The 8px layout grid and the fixed 16:9 canvas. */
  const GRID_UNIT: int := 8
  const CANVAS_WIDTH: int := 1600
  const CANVAS_HEIGHT: int := 900
  const GOLDEN_RATIO: real := 1.618

  /** Colour palettes, five entries each. */
  const PRIMARY_PALETTE: seq<string> := ["#1F3B4D", "#26547C", "#5C88B0", "#A3BFD9", "#D4E4F1"]
  const SECONDARY_PALETTE: seq<string> := ["#10B981", "#F59E0B", "#EF4444", "#8B5CF6", "#06B6D4"]
  const GRADIENT_PALETTE: seq<string> := ["#667EEA", "#764BA2", "#F093FB", "#F5576C", "#4FACFE"]
  const PASTEL_PALETTE: seq<string> := ["#FFB3BA", "#BAFFC9", "#BAE1FF", "#FFFFBA", "#FFB3F7"]

  const CHART_COLORS: map<string, seq<string>> := map[
    "primary" := PRIMARY_PALETTE,
    "secondary" := SECONDARY_PALETTE,
    "gradient" := GRADIENT_PALETTE,
    "pastel" := PASTEL_PALETTE
  ]

  /** Fixed colours for the CBD market categories, keyed by normalised category name. */
  const CBD_COLORS: map<string, string> := map[
    "cbd_oil" := "#1F3B4D",
    "cbd_isolates" := "#26547C",
    "cbd_concentrates" := "#5C88B0",
    "others" := "#A3BFD9"
  ]

  /** Colours of the user-interface elements. */
  const UI_BACKGROUND: string := "#FFFFFF"
  const UI_SURFACE: string := "#F9FAFB"
  const UI_TEXT_PRIMARY: string := "#111827"
  const UI_TEXT_SECONDARY: string := "#6B7280"
  const UI_TEXT_LIGHT: string := "#9CA3AF"
  const UI_BORDER: string := "#E5E7EB"

  /** The five chart-type tags, in the order the program lists them. */
  const SUPPORTED_CHART_TYPES: seq<string> := ["stacked_bar", "line", "pie", "area", "bar"]

  /** Font sizes of the three text roles. */
  const TITLE_FONT_SIZE: int := 48
  const SUBTITLE_FONT_SIZE: int := 24
  const FOOTER_FONT_SIZE: int := 18

  /** The layout configuration record. */
  datatype LayoutConfig = LayoutConfig(
    cardMargin: int,
    logoMaxHeightRatio: real,
    graphMargin: int,
    borderRadius: int,
    shadowBlur: int,
    shadowOffset: (int, int))

  const LAYOUT_CONFIG: LayoutConfig := LayoutConfig(
    GRID_UNIT * 4,
    0.15,
    GRID_UNIT * 8,
    16,
    16,
    (0, 4))

  /** The canvas is 1600 x 900 (16:9) on an 8px grid; the width is a whole number of grid
      units, the height (900 = 112.5 units) is not. */
  lemma CanvasOnGrid()
    ensures GRID_UNIT == 8 && CANVAS_WIDTH == 1600 && CANVAS_HEIGHT == 900
    ensures CANVAS_WIDTH % GRID_UNIT == 0 && CANVAS_HEIGHT % GRID_UNIT != 0
    ensures CANVAS_WIDTH * 9 == CANVAS_HEIGHT * 16
  {
  }

  /** Margins are grid multiples: card 4 units (32px), graph 8 units (64px);
      the shadow is offset (0, 4) with blur 16, corners have radius 16, and the logo is at
      most 15% of the canvas height. */
  lemma LayoutConfigValues()
    ensures LAYOUT_CONFIG.cardMargin == 4 * GRID_UNIT == 32
    ensures LAYOUT_CONFIG.graphMargin == 8 * GRID_UNIT == 64
    ensures LAYOUT_CONFIG.shadowOffset == (0, 4)
    ensures LAYOUT_CONFIG.shadowBlur == 16 && LAYOUT_CONFIG.borderRadius == 16
    ensures LAYOUT_CONFIG.logoMaxHeightRatio == 0.15
  {
  }

  /** Every palette has exactly five colours. */
  lemma PalettesHaveFiveColours()
    ensures forall name :: name in CHART_COLORS ==> |CHART_COLORS[name]| == 5
  {
  }

  /** The supported tags are five pairwise distinct strings. */
  lemma SupportedTypesDistinct()
    ensures |SUPPORTED_CHART_TYPES| == 5
    ensures forall i, j :: 0 <= i < j < |SUPPORTED_CHART_TYPES| ==> SUPPORTED_CHART_TYPES[i] != SUPPORTED_CHART_TYPES[j]
  {
  }
}

=== FILE: decimal.dfy ===
/** Python's `str(n)` for a non-negative integer, and its inverse `int(s)` on digit
    strings: the counter in a generated file name is written in decimal. */
module Decimal {

  predicate IsDigit(c: char) { '0' <= c <= '9' }

  predicate AllDigits(s: string) { forall i :: 0 <= i < |s| ==> IsDigit(s[i]) }

  function DigitChar(d: nat): (c: char)
    requires d < 10
    ensures IsDigit(c)
  {
    ('0' as int + d) as char
  }

  function DigitValue(c: char): (d: nat)
    requires IsDigit(c)
    ensures d < 10
  {
    c as int - '0' as int
  }

  /** `str(n)`: most significant digit first, no leading zero. */
  function NatToString(n: nat): (s: string)
    ensures s != [] && AllDigits(s)
    ensures |s| > 1 ==> s[0] != '0'
    ensures n == 0 <==> s == "0"
  {
    if n < 10 then [DigitChar(n)]
    else NatToString(n / 10) + [DigitChar(n % 10)]
  }

  /** `int(s)` for a string of decimal digits. */
  function ParseNat(s: string): nat
    requires AllDigits(s)
  {
    if s == [] then 0
    else ParseNat(s[..|s| - 1]) * 10 + DigitValue(s[|s| - 1])
  }

  /** Reading back what `NatToString` wrote gives the number again. */
  lemma {:induction false} ParseNatToString(n: nat)
    ensures ParseNat(NatToString(n)) == n
  {
    var s := NatToString(n);
    if n < 10 {
      assert s[..|s| - 1] == [];
    } else {
      assert s[..|s| - 1] == NatToString(n / 10);
      ParseNatToString(n / 10);
    }
  }

  /** Different numbers are written differently. */
  lemma NatToStringInjective(m: nat, n: nat)
    ensures NatToString(m) == NatToString(n) ==> m == n
  {
    ParseNatToString(m);
    ParseNatToString(n);
  }
}

=== FILE: filenames.dfy ===
/** `generate_unique_filename` of src/utils/file_utils.py. The file system is abstracted
    as the finite set of paths that `os.path.exists` reports as present. */
module FileNames {
  import opened Decimal

  /** Two-argument `os.path.join` on POSIX: an absolute second part replaces the first;
      otherwise a '/' is inserted unless the first part is empty or already ends in one. */
  function PathJoin(dir: string, name: string): (p: string)
    ensures name != [] && name[0] == '/' ==> p == name
    ensures (name == [] || name[0] != '/') && (dir == [] || dir[|dir| - 1] == '/') ==> p == dir + name
    ensures (name == [] || name[0] != '/') && dir != [] && dir[|dir| - 1] != '/' ==> p == dir + "/" + name
  {
    if name != [] && name[0] == '/' then name
    else if dir == [] || dir[|dir| - 1] == '/' then dir + name
    else dir + "/" + name
  }

  /** The file name tried at attempt `k`: `base.png` first, then `base-k.png`. */
  function FileName(base: string, k: nat): string
  {
    if k == 0 then base + ".png" else base + ("-" + (NatToString(k) + ".png"))
  }

  function Candidate(dir: string, base: string, k: nat): string
  {
    PathJoin(dir, FileName(base, k))
  }

  /** Joining onto the same directory keeps distinct names distinct, provided they agree on
      whether they are absolute. */
  lemma PathJoinInjective(dir: string, x: string, y: string)
    requires (x != [] && x[0] == '/') == (y != [] && y[0] == '/')
    requires PathJoin(dir, x) == PathJoin(dir, y)
    ensures x == y
  {
    if !(x != [] && x[0] == '/') {
      var prefix := if dir == [] || dir[|dir| - 1] == '/' then dir else dir + "/";
      assert PathJoin(dir, x) == prefix + x && PathJoin(dir, y) == prefix + y;
      assert x == (prefix + x)[|prefix|..];
    }
  }

  lemma SuffixCancel(a: string, b: string, t: string)
    requires a + t == b + t
    ensures a == b
  {
    assert a == (a + t)[..|a|];
    assert b == (b + t)[..|b|];
  }

  /** Attempt numbers are never confused: every attempt names a different file. */
  lemma FileNameInjective(base: string, j: nat, k: nat)
    requires FileName(base, j) == FileName(base, k)
    ensures j == k
  {
    var fj := FileName(base, j);
    var fk := FileName(base, k);
    var tj := fj[|base|..];
    var tk := fk[|base|..];
    assert tj == tk;
    assert tj[0] == (if j == 0 then '.' else '-');
    assert tk[0] == (if k == 0 then '.' else '-');
    if j != 0 && k != 0 {
      assert tj == "-" + (NatToString(j) + ".png");
      assert tk == "-" + (NatToString(k) + ".png");
      assert NatToString(j) + ".png" == tj[1..] == NatToString(k) + ".png";
      SuffixCancel(NatToString(j), NatToString(k), ".png");
      NatToStringInjective(j, k);
    }
  }

  lemma CandidateInjective(dir: string, base: string, j: nat, k: nat)
    ensures Candidate(dir, base, j) == Candidate(dir, base, k) <==> j == k
  {
    var fj := FileName(base, j);
    var fk := FileName(base, k);
    if Candidate(dir, base, j) == Candidate(dir, base, k) {
      if base != [] {
        assert fj[0] == base[0] && fk[0] == base[0];
      } else {
        assert fj[0] != '/' && fk[0] != '/';
      }
      PathJoinInjective(dir, fj, fk);
      FileNameInjective(base, j, k);
    }
  }

  /** An injective function maps the first `n` naturals to `n` different values. */
  lemma {:induction false} InjectiveImageCount<T>(f: nat -> T, n: nat)
    requires forall j: nat, k: nat :: f(j) == f(k) ==> j == k
    ensures |set j: nat | j < n :: f(j)| == n
  {
    if n > 0 {
      InjectiveImageCount(f, n - 1);
      var before := set j: nat | j < n - 1 :: f(j);
      assert (set j: nat | j < n :: f(j)) == before + {f(n - 1)};
      assert f(n - 1) !in before;
    }
  }

  /** If the first `n` attempts all exist, there are at least `n` existing paths: the
      attempts name `n` different paths. */
  lemma TakenBound(dir: string, base: string, existing: set<string>, n: nat)
    requires forall j :: 0 <= j < n ==> Candidate(dir, base, j) in existing
    ensures n <= |existing|
  {
    var attempt := (k: nat) => Candidate(dir, base, k);
    forall j: nat, k: nat | attempt(j) == attempt(k)
      ensures j == k
    {
      CandidateInjective(dir, base, j, k);
    }
    InjectiveImageCount(attempt, n);
    SubsetCardinality(set j: nat | j < n :: attempt(j), existing);
  }

  lemma {:induction false} SubsetCardinality<T>(a: set<T>, b: set<T>)
    requires a <= b
    ensures |a| <= |b|
    decreases a
  {
    if a != {} {
      var x :| x in a;
      SubsetCardinality(a - {x}, b - {x});
    }
  }

  /** The search loop: `base.png`, then `base-1.png`, `base-2.png`, ... until a path does
      not exist. The result is the first absent candidate. */
  method GenerateUniqueFilename(dir: string, base: string, existing: set<string>) returns (path: string)
    ensures path !in existing
    ensures exists k: nat :: path == Candidate(dir, base, k)
                             && forall j :: 0 <= j < k ==> Candidate(dir, base, j) in existing
    ensures Candidate(dir, base, 0) !in existing ==> path == Candidate(dir, base, 0)
  {
    path := PathJoin(dir, base + ".png");
    var counter: nat := 1;
    while path in existing
      invariant path == Candidate(dir, base, counter - 1)
      invariant forall j :: 0 <= j < counter - 1 ==> Candidate(dir, base, j) in existing
      decreases |existing| - (counter - 1)
    {
      TakenBound(dir, base, existing, counter);
      path := PathJoin(dir, base + "-" + NatToString(counter) + ".png");
      assert base + "-" + NatToString(counter) + ".png" == FileName(base, counter);
      counter := counter + 1;
    }
  }

  /** Of all candidates, exactly the first `n` are present. */
  ghost predicate ExactlyFirst(dir: string, base: string, present: set<string>, n: nat)
  {
    forall m: nat :: Candidate(dir, base, m) in present <==> m < n
  }

  /** One more call when exactly the first `n` candidates exist: the result is the next
      candidate, and afterwards exactly the first `n + 1` exist. */
  lemma NextCall(dir: string, base: string, present: set<string>, n: nat, p: string, k: nat)
    requires ExactlyFirst(dir, base, present, n)
    requires p !in present && p == Candidate(dir, base, k)
    requires forall j :: 0 <= j < k ==> Candidate(dir, base, j) in present
    ensures k == n
    ensures ExactlyFirst(dir, base, present + {p}, n + 1)
  {
    assert n < k ==> Candidate(dir, base, n) in present;
    assert k == n;
    forall m: nat | Candidate(dir, base, m) in present + {p}
      ensures m < n + 1
    {
      CandidateInjective(dir, base, m, k);
    }
  }

  /** Calling the generator `n` times, each time adding its result to the existing paths,
      yields `base.png`, `base-1.png`, ..., `base-(n-1).png` in that order. */
  method RepeatedCalls(dir: string, base: string, existing: set<string>, n: nat) returns (paths: seq<string>)
    requires forall k: nat :: Candidate(dir, base, k) !in existing
    ensures |paths| == n
    ensures forall i :: 0 <= i < n ==> paths[i] == Candidate(dir, base, i)
  {
    paths := [];
    var present := existing;
    while |paths| < n
      invariant |paths| <= n
      invariant forall i :: 0 <= i < |paths| ==> paths[i] == Candidate(dir, base, i)
      invariant ExactlyFirst(dir, base, present, |paths|)
    {
      var p := GenerateUniqueFilename(dir, base, present);
      ghost var k: nat :| p == Candidate(dir, base, k)
                          && forall j :: 0 <= j < k ==> Candidate(dir, base, j) in present;
      NextCall(dir, base, present, |paths|, p, k);
      paths := paths + [p];
      present := present + {p};
    }
  }
}

=== FILE: json.dfy ===
/** The JSON values a parsed configuration holds, with the few Python operations the
    validator and the renderer apply to them. */
module JsonValues {
  import opened Wrappers

  /** A decoded JSON value. Integers and floats are both numbers; objects are maps
      (key order is not modelled). */
  datatype Json =
    | JNull
    | JBool(b: bool)
    | JNum(n: real)
    | JStr(s: string)
    | JArr(items: seq<Json>)
    | JObj(fields: map<string, Json>)

  /** Python `len(j)`: `None` where `len` raises a TypeError (numbers, booleans, null). */
  function Len(j: Json): (r: Option<nat>)
    ensures r.Some? <==> (j.JStr? || j.JArr? || j.JObj?)
  {
    match j
    case JStr(s) => Some(|s|)
    case JArr(items) => Some(|items|)
    case JObj(fields) => Some(|fields|)
    case _ => None
  }

  /** Python truthiness of a decoded JSON value. */
  predicate Truthy(j: Json)
  {
    match j
    case JNull => false
    case JBool(b) => b
    case JNum(n) => n != 0.0
    case JStr(s) => s != []
    case JArr(items) => items != []
    case JObj(fields) => fields != map[]
  }

  /** `e` is produced by a Python `for e in j` loop: array items, one-character
      strings of a string, or the keys of an object. */
  ghost predicate IsElement(j: Json, e: Json)
  {
    match j
    case JArr(items) => e in items
    case JStr(s) => exists i :: 0 <= i < |s| && e == JStr([s[i]])
    case JObj(fields) => exists k :: k in fields && e == JStr(k)
    case _ => false
  }
}

=== FILE: layout.dfy ===
/** The layout engine of src/utils/layout_utils.py: fixed integer positions of every
    region of the 1600 x 900 dashboard, derived from the 8px grid. */
module Layout {
  import opened Constants

  /** The position dictionary of `calculate_layout_positions`. */
  datatype Positions = Positions(
    titleX: int, titleY: int,
    subtitleX: int, subtitleY: int,
    logoX: int, logoY: int,
    graphX: int, graphY: int, graphWidth: int, graphHeight: int,
    footerY: int)

  /** The width reserved for the logo box in the top-right corner. */
  const LOGO_BOX_WIDTH: int := 200

  /** `calculate_layout_positions`: a header, a full-width graph with equal margins, a
      logo whose box ends where the graph ends, and a footer below the graph. */
  function LayoutPositions(): (p: Positions)
    ensures p.titleX == 64 && p.titleY == 64
    ensures p.subtitleX == 64 && p.subtitleY == 128
    ensures p.logoX == 1336 && p.logoY == 64
    ensures p.graphX == 64 && p.graphY == 256 && p.graphWidth == 1472 && p.graphHeight == 388
    ensures p.footerY == 804
    // the graph is centred horizontally: equal left and right margins
    ensures p.graphX == CANVAS_WIDTH - (p.graphX + p.graphWidth)
    // the graph's left margin is the configured graph margin
    ensures p.graphX == LAYOUT_CONFIG.graphMargin
    // the logo box and the graph share their right edge
    ensures p.logoX + LOGO_BOX_WIDTH == p.graphX + p.graphWidth == 1536
    // header, graph and footer are stacked top to bottom without overlap
    ensures p.titleY < p.subtitleY < p.graphY
    ensures p.graphY + p.graphHeight == 644 <= p.footerY < CANVAS_HEIGHT
    // text and logo rows start on the same line, text and graph on the same column
    ensures p.titleX == p.subtitleX == p.graphX && p.titleY == p.logoY
  {
    Positions(
      GRID_UNIT * 8, GRID_UNIT * 8,
      GRID_UNIT * 8, GRID_UNIT * 16,
      CANVAS_WIDTH - GRID_UNIT * 8 - LOGO_BOX_WIDTH, GRID_UNIT * 8,
      GRID_UNIT * 8, GRID_UNIT * 32, CANVAS_WIDTH - GRID_UNIT * 16, CANVAS_HEIGHT - GRID_UNIT * 64,
      CANVAS_HEIGHT - GRID_UNIT * 12)
  }

  /** The dictionary of `calculate_card_dimensions`. */
  datatype Card = Card(width: int, height: int, margin: int, x: int, y: int)

  /** `calculate_card_dimensions`: the card fills the canvas less the card margin on every
      side. */
  function CardDimensions(): (c: Card)
    ensures c == Card(1536, 836, 32, 32, 32)
    ensures c.margin == LAYOUT_CONFIG.cardMargin
    ensures c.x == c.y == c.margin
    ensures c.x + c.width + c.margin == CANVAS_WIDTH
    ensures c.y + c.height + c.margin == CANVAS_HEIGHT
  {
    var m := LAYOUT_CONFIG.cardMargin;
    Card(CANVAS_WIDTH - m * 2, CANVAS_HEIGHT - m * 2, m, m, m)
  }

  /** The padding around the graph inside its container. */
  const CONTAINER_PADDING: int := 16

  /** The dictionary of `calculate_graph_container_dimensions`. */
  datatype Container = Container(width: int, height: int, padding: int, offsetX: int, offsetY: int)

  /** `calculate_graph_container_dimensions`: the container is the graph grown by the
      padding on every side, placed so the graph sits at its centre. */
  function GraphContainerDimensions(graphWidth: int, graphHeight: int): (c: Container)
    ensures c.padding == 16
    ensures c.width == graphWidth + 32 && c.height == graphHeight + 32
    ensures c.offsetX == c.offsetY == -c.padding
    // placed at the graph origin plus the offset, the container reaches exactly as far past
    // the graph on the far side as it starts before it on the near side
    ensures -c.offsetX == c.width + c.offsetX - graphWidth
    ensures -c.offsetY == c.height + c.offsetY - graphHeight
  {
    var padding := CONTAINER_PADDING;
    Container(graphWidth + padding * 2, graphHeight + padding * 2, padding, -padding, -padding)
  }

  /** Python's `a // 2`: the floor of a / 2. Dafny's `/` rounds toward negative infinity
      for a positive divisor, so the two agree for every sign of `a`. */
  function FloorHalf(a: int): (q: int)
    ensures 2 * q <= a < 2 * q + 2
  {
    a / 2
  }

  /** `center_text_horizontally`: ten pixels are assumed per character, and the left edge
      is the floor of half the remaining width (negative when the text is wider than the
      canvas). The font argument plays no part. */
  function CenterTextHorizontally(text: string, canvasWidth: int): (x: int)
    ensures 2 * x <= canvasWidth - 10 * |text| < 2 * x + 2
    // the space left of the text equals the space right of it, or is one pixel less
    ensures (canvasWidth - (x + 10 * |text|)) - x in {0, 1}
  {
    FloorHalf(canvasWidth - |text| * 10)
  }

  /** The floor half is the only integer with that property, so the centring position is
      fully determined by the text length. */
  lemma FloorHalfUnique(a: int, q: int)
    requires 2 * q <= a < 2 * q + 2
    ensures q == FloorHalf(a)
  {
  }

  /** Text of even pixel width is exactly centred; a negative position for an over-wide text
      is rounded down, as Python does, not toward zero. */
  lemma CenterTextExamples(t: string)
    requires |t| == 161
    ensures CenterTextHorizontally(t, 1600) == -5
    ensures CenterTextHorizontally(t[..5], 1600) == 775
    ensures CenterTextHorizontally(t, 1605) == -3
  {
  }
}

=== FILE: mathutils.dfy ===
/** The numeric helpers of src/utils/math_utils.py, over exact reals (Python floats are
    idealised: no rounding). */
module MathUtils {

  /** Python's `sum`, adding left to right. */
  function Sum(s: seq<real>): real
  {
    if s == [] then 0.0 else Sum(s[..|s| - 1]) + s[|s| - 1]
  }

  /** Extending a sequence by one element adds that element to the sum. */
  lemma SumSnoc(s: seq<real>, x: real)
    ensures Sum(s + [x]) == Sum(s) + x
  {
    assert (s + [x])[..|s|] == s;
  }

  lemma {:induction false} SumConcat(a: seq<real>, b: seq<real>)
    ensures Sum(a + b) == Sum(a) + Sum(b)
    decreases |b|
  {
    if b == [] {
      assert a + b == a;
    } else {
      var b' := b[..|b| - 1];
      assert a + b == (a + b') + [b[|b| - 1]];
      SumSnoc(a + b', b[|b| - 1]);
      SumConcat(a, b');
      SumSnoc(b', b[|b| - 1]);
      assert b' + [b[|b| - 1]] == b;
    }
  }

  /** A sum of non-negative numbers is at least each of its parts. */
  lemma {:induction false} SumBoundsPrefix(s: seq<real>, i: nat)
    requires i <= |s|
    requires forall k :: 0 <= k < |s| ==> s[k] >= 0.0
    ensures 0.0 <= Sum(s[..i]) <= Sum(s)
    decreases |s|
  {
    if i < |s| {
      var init := s[..|s| - 1];
      assert s[..i] == init[..i];
      SumBoundsPrefix(init, i);
    } else {
      assert s[..i] == s;
      if s != [] {
        SumBoundsPrefix(s[..|s| - 1], |s| - 1);
        assert s[..|s| - 1][..|s| - 1] == s[..|s| - 1];
      }
    }
  }

  /** `calculate_total_values`: one total per period, each the sum of that period's
      values; an empty period totals 0. */
  function CalculateTotalValues(values: seq<seq<real>>): (totals: seq<real>)
    ensures |totals| == |values|
    ensures forall i :: 0 <= i < |values| && values[i] == [] ==> totals[i] == 0.0
    ensures forall i :: 0 <= i < |values| ==> totals[i] == Sum(values[i])
  {
    seq(|values|, i requires 0 <= i < |values| => Sum(values[i]))
  }

  /** Totals of whole periods add up: the total of a period split in two parts is the sum
      of the totals of the parts. */
  lemma TotalsSplit(a: seq<real>, b: seq<real>)
    ensures CalculateTotalValues([a + b]) == [CalculateTotalValues([a])[0] + CalculateTotalValues([b])[0]]
  {
    SumConcat(a, b);
  }

  /** Python's `max` of a non-empty list. */
  function Max(s: seq<real>): (m: real)
    requires s != []
    ensures m in s
    ensures forall i :: 0 <= i < |s| ==> s[i] <= m
  {
    if |s| == 1 then s[0]
    else
      var rest := Max(s[1..]);
      assert forall i :: 1 <= i < |s| ==> s[i] == s[1..][i - 1];
      if s[0] >= rest then s[0] else rest
  }

  /** `normalize_values`: each value divided by the largest one; an empty list stays empty
      and a largest value of zero gives all zeros. */
  function NormalizeValues(values: seq<real>): (r: seq<real>)
    ensures |r| == |values|
    ensures values != [] && Max(values) == 0.0 ==> forall i :: 0 <= i < |r| ==> r[i] == 0.0
    ensures values != [] && Max(values) != 0.0 ==> forall i :: 0 <= i < |r| ==> r[i] == values[i] / Max(values)
  {
    if values == [] then []
    else
      var m := Max(values);
      if m == 0.0 then seq(|values|, _ => 0.0)
      else seq(|values|, i requires 0 <= i < |values| => values[i] / m)
  }

  /** A non-negative value over a positive maximum it does not exceed is a ratio in
      [0, 1], and exactly 1 at the maximum. */
  lemma RatioBounds(v: real, m: real)
    requires m > 0.0 && 0.0 <= v <= m
    ensures 0.0 <= v / m <= 1.0
    ensures v == m ==> v / m == 1.0
  {
    assert (v / m) * m == v;
  }

  /** The maximum of a list is the element that every element is at most. */
  lemma MaxIsUpperElement(s: seq<real>, k: nat)
    requires k < |s| && forall i :: 0 <= i < |s| ==> s[i] <= s[k]
    ensures Max(s) == s[k]
  {
  }

  /** For non-negative data with a positive maximum every normalised value lies in [0, 1]
      and the maximum itself becomes exactly 1. */
  lemma NormalizedInUnitInterval(values: seq<real>)
    requires values != [] && Max(values) > 0.0
    requires forall i :: 0 <= i < |values| ==> values[i] >= 0.0
    ensures forall i :: 0 <= i < |values| ==> 0.0 <= NormalizeValues(values)[i] <= 1.0
    ensures exists i :: 0 <= i < |values| && NormalizeValues(values)[i] == 1.0
  {
    var r := NormalizeValues(values);
    var m := Max(values);
    forall i | 0 <= i < |values|
      ensures 0.0 <= r[i] <= 1.0
    {
      RatioBounds(values[i], m);
    }
    var k :| 0 <= k < |values| && values[k] == m;
    RatioBounds(values[k], m);
  }

  lemma RatioAtMostOne(v: real, m: real)
    requires m > 0.0 && v <= m
    ensures v / m <= 1.0
  {
    assert (v / m) * m == v;
  }

  lemma SelfRatio(m: real)
    requires m != 0.0
    ensures m / m == 1.0
  {
  }

  /** Values scaled down by their positive maximum have largest value 1. */
  lemma ScaledMaxIsOne(r: seq<real>, values: seq<real>, m: real, k: nat)
    requires |r| == |values| && m > 0.0 && k < |values| && values[k] == m
    requires forall i :: 0 <= i < |values| ==> values[i] <= m
    requires forall i :: 0 <= i < |r| ==> r[i] == values[i] / m
    ensures r != [] && Max(r) == 1.0
  {
    assert r[k] == m / m;
    SelfRatio(m);
    forall i | 0 <= i < |r|
      ensures r[i] <= r[k]
    {
      RatioAtMostOne(values[i], m);
    }
    MaxIsUpperElement(r, k);
  }

  /** After dividing by a positive maximum, the largest value is 1. */
  lemma NormalizedMaxIsOne(values: seq<real>)
    requires values != [] && Max(values) > 0.0
    ensures Max(NormalizeValues(values)) == 1.0
  {
    var m := Max(values);
    var k :| 0 <= k < |values| && values[k] == m;
    ScaledMaxIsOne(NormalizeValues(values), values, m, k);
  }

  /** Data whose maximum is already 1 is left as it is. */
  lemma NormalizeUnitMax(r: seq<real>)
    requires r != [] && Max(r) == 1.0
    ensures NormalizeValues(r) == r
  {
    assert forall i :: 0 <= i < |r| ==> r[i] / 1.0 == r[i];
  }

  /** Normalising normalised data changes nothing, whenever the largest value is not
      negative. */
  lemma NormalizeIdempotent(values: seq<real>)
    requires values != [] ==> Max(values) >= 0.0
    ensures NormalizeValues(NormalizeValues(values)) == NormalizeValues(values)
  {
    if values != [] && Max(values) > 0.0 {
      NormalizedMaxIsOne(values);
      NormalizeUnitMax(NormalizeValues(values));
    }
  }
}

=== FILE: renderer.dfy ===
/** `DashboardRenderer.render_dashboard` of src/ui/dashboard_renderer.py as an abstract
    compositor: instead of pixels it returns the ordered list of paint operations, each
    with its kind, origin and size. The inputs that come from libraries are parameters:
    the file system seen by the logo loader, the logo's scaled width, the chart drawing
    (which yields the chart image's native size or an error) and the measured width of
    the footer text. */
module Renderer {
  import opened Wrappers
  import opened JsonValues
  import opened Constants
  import Layout
  import Charts
  import opened UiUtils

  /** The configuration fields the renderer reads. `logoPath` is `config.get('logo_path')`;
      `subtitle` and `footer` default to the empty string. */
  datatype DashboardConfig = DashboardConfig(
    title: string,
    subtitle: string,
    footer: string,
    logoPath: Option<string>,
    graph: Json)

  /** The image layers pasted onto the canvas. `Graph` records whether the chart image was
      resampled to the graph size. */
  datatype Layer = Background | CardWithShadow | Logo | GraphContainer | Graph(resampled: bool)

  datatype TextRole = Title | Subtitle | Footer

  datatype PaintOp =
    | Paste(layer: Layer, x: int, y: int, size: Size)
    | Text(role: TextRole, x: int, y: int, text: string, fontSize: int)

  /** Why rendering raised: `config['graph']` is not a dictionary (so `.get` fails), or
      the chart factory or the chart's drawing raised. */
  datatype DashboardError<E> = GraphNotObject | ChartFailed(reason: Charts.RenderError<E>)

  /** The module-level `calculate_graph_container_dimensions` that the renderer calls
      (a copy of the one in the layout utilities). */
  function ContainerDimensions(graphWidth: int, graphHeight: int): (c: Layout.Container)
    ensures c == Layout.GraphContainerDimensions(graphWidth, graphHeight)
  {
    var padding := 16;
    Layout.Container(graphWidth + padding * 2, graphHeight + padding * 2, padding, -padding, -padding)
  }

  /** The paint stage of each operation, in the order `render_dashboard` runs its steps. */
  function Rank(op: PaintOp): nat
  {
    match op
    case Paste(Background, _, _, _) => 0
    case Paste(CardWithShadow, _, _, _) => 1
    case Paste(Logo, _, _, _) => 2
    case Text(Title, _, _, _, _) => 3
    case Text(Subtitle, _, _, _, _) => 4
    case Paste(GraphContainer, _, _, _) => 5
    case Paste(Graph(_), _, _, _) => 6
    case Text(Footer, _, _, _, _) => 7
  }

  /** Every operation comes in a later stage than the ones before it (so no stage occurs
      twice). */
  predicate InPaintOrder(ops: seq<PaintOp>)
  {
    forall i, j :: 0 <= i < j < |ops| ==> Rank(ops[i]) < Rank(ops[j])
  }

  /** Some operation of the given stage is present. */
  predicate HasStage(ops: seq<PaintOp>, rank: nat)
  {
    exists i :: 0 <= i < |ops| && Rank(ops[i]) == rank
  }

  /** Every operation's stage lies in `lo..hi`. */
  predicate RanksWithin(ops: seq<PaintOp>, lo: nat, hi: nat)
  {
    forall i :: 0 <= i < |ops| ==> lo <= Rank(ops[i]) <= hi
  }

  lemma InPaintOrderConcat(a: seq<PaintOp>, b: seq<PaintOp>, lo: nat, mid: nat, hi: nat)
    requires InPaintOrder(a) && InPaintOrder(b)
    requires lo <= mid < hi
    requires RanksWithin(a, lo, mid) && RanksWithin(b, mid + 1, hi)
    ensures InPaintOrder(a + b) && RanksWithin(a + b, lo, hi)
  {
    forall i, j | 0 <= i < j < |a + b|
      ensures Rank((a + b)[i]) < Rank((a + b)[j])
    {
      if j < |a| {
        assert (a + b)[i] == a[i] && (a + b)[j] == a[j];
      } else if i < |a| {
        assert (a + b)[i] == a[i] && (a + b)[j] == b[j - |a|];
      } else {
        assert (a + b)[i] == b[i - |a|] && (a + b)[j] == b[j - |a|];
      }
    }
    forall i | 0 <= i < |a + b|
      ensures lo <= Rank((a + b)[i]) <= hi
    {
      if i < |a| {
        assert (a + b)[i] == a[i];
      } else {
        assert (a + b)[i] == b[i - |a|];
      }
    }
  }

  // ---------------------------------------------------------------------------------
  // The steps.

  /** `create_gradient_background`: the full canvas. */
  function BackgroundOp(): PaintOp
  {
    Paste(Background, 0, 0, Size(CANVAS_WIDTH, CANVAS_HEIGHT))
  }

  /** `_add_main_card`: the card image is `card_width x card_height`, `add_shadow` grows it
      by the shadow offset and blur, and it is pasted 16 pixels up and left of the card
      position. */
  function MainCardOp(): (op: PaintOp)
    ensures op == Paste(CardWithShadow, 16, 16, Size(1568, 872))
  {
    var dims := Layout.CardDimensions();
    var card := CreateRoundedRectangle(dims.width, dims.height, LAYOUT_CONFIG.borderRadius);
    assert card.Success?;
    var shadowed := AddShadow(card.value, LAYOUT_CONFIG.shadowOffset.0, LAYOUT_CONFIG.shadowOffset.1,
                              LAYOUT_CONFIG.shadowBlur);
    assert shadowed.Success?;
    Paste(CardWithShadow, dims.x - 16, dims.y - 16, shadowed.value.size)
  }

  /** The logo is drawn when the path is truthy (present and non-empty) and loading it
      succeeded. */
  function LoadedLogo(config: DashboardConfig, files: map<string, Option<Size>>, logoWidth: nat): Option<Size>
  {
    match config.logoPath
    case Some(path) =>
      if path != "" then LoadAndResizeLogo(path, None, files, logoWidth) else None
    case None => None
  }

  /** `_add_logo`. */
  function LogoOps(config: DashboardConfig, files: map<string, Option<Size>>, logoWidth: nat): (ops: seq<PaintOp>)
    ensures |ops| <= 1
    ensures forall i :: 0 <= i < |ops| ==> Rank(ops[i]) == 2
    ensures |ops| == 1 <==> config.logoPath.Some? && config.logoPath.value != ""
                            && LoadAndResizeLogo(config.logoPath.value, None, files, logoWidth).Some?
    ensures |ops| == 1 ==> ops[0] == Paste(Logo, 1336, 64, LoadAndResizeLogo(config.logoPath.value, None, files, logoWidth).value)
  {
    var p := Layout.LayoutPositions();
    match LoadedLogo(config, files, logoWidth)
    case Some(size) => [Paste(Logo, p.logoX, p.logoY, size)]
    case None => []
  }

  /** `_add_title_and_subtitle`: the title always, the subtitle only when non-empty. */
  function TitleOps(config: DashboardConfig): (ops: seq<PaintOp>)
    ensures 1 <= |ops| <= 2 && InPaintOrder(ops)
    ensures forall i :: 0 <= i < |ops| ==> Rank(ops[i]) in {3, 4}
    ensures ops[0] == Text(Title, 64, 64, config.title, TITLE_FONT_SIZE)
    ensures |ops| == 2 <==> config.subtitle != ""
    ensures |ops| == 2 ==> ops[1] == Text(Subtitle, 64, 128, config.subtitle, SUBTITLE_FONT_SIZE)
  {
    var p := Layout.LayoutPositions();
    var title := Text(Title, p.titleX, p.titleY, config.title, TITLE_FONT_SIZE);
    if config.subtitle != "" then
      [title, Text(Subtitle, p.subtitleX, p.subtitleY, config.subtitle, SUBTITLE_FONT_SIZE)]
    else [title]
  }

  /** `_add_chart` after the chart image exists: the container is pasted at the graph
      origin plus its (negative) offset, then the chart image, resampled to the graph size
      when its native size differs. */
  function ChartOps(native: Size): (ops: seq<PaintOp>)
    ensures |ops| == 2 && Rank(ops[0]) == 5 && Rank(ops[1]) == 6
    ensures ops[0] == Paste(GraphContainer, 48, 240, Size(1504, 420))
    ensures ops[1] == Paste(Graph(native != Size(1472, 388)), 64, 256, Size(1472, 388))
  {
    var p := Layout.LayoutPositions();
    var c := ContainerDimensions(p.graphWidth, p.graphHeight);
    var container := CreateRoundedRectangle(c.width, c.height, 12);
    assert container.Success?;
    var target := Size(p.graphWidth, p.graphHeight);
    [Paste(GraphContainer, p.graphX + c.offsetX, p.graphY + c.offsetY, container.value),
     Paste(Graph(native != target), p.graphX, p.graphY, target)]
  }

  /** `_add_footer`: drawn only when non-empty, centred by the measured text width. */
  function FooterOps(footer: string, footerWidth: int): (ops: seq<PaintOp>)
    ensures |ops| <= 1
    ensures forall i :: 0 <= i < |ops| ==> Rank(ops[i]) == 7
    ensures |ops| == 1 <==> footer != ""
    ensures |ops| == 1 ==>
      && ops[0].Text? && ops[0].role == Footer && ops[0].text == footer && ops[0].y == 804
      && ops[0].fontSize == FOOTER_FONT_SIZE
      && 2 * ops[0].x <= CANVAS_WIDTH - footerWidth < 2 * ops[0].x + 2
  {
    var p := Layout.LayoutPositions();
    if footer != "" then [Text(Footer, Layout.FloorHalf(CANVAS_WIDTH - footerWidth), p.footerY, footer, FOOTER_FONT_SIZE)]
    else []
  }

  /** Where each kind of operation goes and how large it is, stated against the layout
      positions and the card dimensions. */
  predicate PlacedAsDesigned(op: PaintOp, config: DashboardConfig, logo: Option<Size>, native: Size, footerWidth: int)
  {
    var p := Layout.LayoutPositions();
    var card := Layout.CardDimensions();
    match op
    case Paste(Background, x, y, size) => x == 0 && y == 0 && size == Size(CANVAS_WIDTH, CANVAS_HEIGHT)
    case Paste(CardWithShadow, x, y, size) =>
      // the card surface, inset by the blur radius inside the shadow image, lands on the card
      && x + LAYOUT_CONFIG.shadowBlur == card.x && y + LAYOUT_CONFIG.shadowBlur == card.y
      && size == Size(card.width + LAYOUT_CONFIG.shadowOffset.0 + 2 * LAYOUT_CONFIG.shadowBlur,
                      card.height + LAYOUT_CONFIG.shadowOffset.1 + 2 * LAYOUT_CONFIG.shadowBlur)
    case Paste(Logo, x, y, size) => x == p.logoX && y == p.logoY && logo == Some(size)
    case Text(Title, x, y, text, fontSize) =>
      x == p.titleX && y == p.titleY && text == config.title && fontSize == TITLE_FONT_SIZE
    case Text(Subtitle, x, y, text, fontSize) =>
      x == p.subtitleX && y == p.subtitleY && text == config.subtitle && fontSize == SUBTITLE_FONT_SIZE
    case Paste(GraphContainer, x, y, size) =>
      x == p.graphX - 16 && y == p.graphY - 16 && size == Size(p.graphWidth + 32, p.graphHeight + 32)
    case Paste(Graph(resampled), x, y, size) =>
      && x == p.graphX && y == p.graphY && size == Size(p.graphWidth, p.graphHeight)
      && (resampled <==> native != Size(p.graphWidth, p.graphHeight))
    case Text(Footer, x, y, text, fontSize) =>
      && 2 * x <= CANVAS_WIDTH - footerWidth < 2 * x + 2
      && y == p.footerY && text == config.footer && fontSize == FOOTER_FONT_SIZE
  }

  /** `render_dashboard`: background, card, logo, title and subtitle, chart, footer. The
      chart is requested at the graph size; a failure anywhere in building or drawing it
      makes the whole call fail. */
  function RenderDashboard<E>(config: DashboardConfig, files: map<string, Option<Size>>, logoWidth: nat,
                              draw: Charts.Chart -> Result<Size, E>, footerWidth: int)
    : (r: Result<seq<PaintOp>, DashboardError<E>>)
    ensures !config.graph.JObj? ==> r == Failure(GraphNotObject)
    ensures config.graph.JObj? ==>
      var p := Layout.LayoutPositions();
      var chart := Charts.RenderChart(config.graph.fields, p.graphWidth, p.graphHeight, draw);
      && (chart.Failure? <==> r.Failure?)
      && (chart.Failure? ==> r == Failure(ChartFailed(chart.error)))
    ensures r.Success? ==>
      var ops := r.value;
      var logo := LoadedLogo(config, files, logoWidth);
      var p := Layout.LayoutPositions();
      var chart := Charts.RenderChart(config.graph.fields, p.graphWidth, p.graphHeight, draw);
      && InPaintOrder(ops)
      && HasStage(ops, 0) && HasStage(ops, 1) && HasStage(ops, 3) && HasStage(ops, 5) && HasStage(ops, 6)
      && (HasStage(ops, 2) <==> logo.Some?)
      && (HasStage(ops, 4) <==> config.subtitle != "")
      && (HasStage(ops, 7) <==> config.footer != "")
      && config.graph.JObj? && chart.Success?
      && forall i :: 0 <= i < |ops| ==> PlacedAsDesigned(ops[i], config, logo, chart.value, footerWidth)
  {
    if !config.graph.JObj? then Failure(GraphNotObject)
    else
      var p := Layout.LayoutPositions();
      match Charts.RenderChart(config.graph.fields, p.graphWidth, p.graphHeight, draw)
      case Failure(e) => Failure(ChartFailed(e))
      case Success(native) =>
        var ops := Compose(config, files, logoWidth, native, footerWidth);
        ComposeMeaning(config, files, logoWidth, native, footerWidth);
        Success(ops)
  }

  /** The operations of a successful render, given the chart's native size. */
  function Compose(config: DashboardConfig, files: map<string, Option<Size>>, logoWidth: nat,
                   native: Size, footerWidth: int): seq<PaintOp>
  {
    [BackgroundOp(), MainCardOp()]
      + (LogoOps(config, files, logoWidth)
      + (TitleOps(config)
      + (ChartOps(native)
      + FooterOps(config.footer, footerWidth))))
  }

  lemma ComposeMeaning(config: DashboardConfig, files: map<string, Option<Size>>, logoWidth: nat,
                       native: Size, footerWidth: int)
    ensures var ops := Compose(config, files, logoWidth, native, footerWidth);
            var logo := LoadedLogo(config, files, logoWidth);
            && InPaintOrder(ops)
            && HasStage(ops, 0) && HasStage(ops, 1) && HasStage(ops, 3) && HasStage(ops, 5) && HasStage(ops, 6)
            && (HasStage(ops, 2) <==> logo.Some?)
            && (HasStage(ops, 4) <==> config.subtitle != "")
            && (HasStage(ops, 7) <==> config.footer != "")
            && forall i :: 0 <= i < |ops| ==> PlacedAsDesigned(ops[i], config, logo, native, footerWidth)
  {
    ComposeOrder(config, files, logoWidth, native, footerWidth);
    ComposeStages(config, files, logoWidth, native, footerWidth);
    PlacementOf(config, files, logoWidth, native, footerWidth);
  }

  lemma ComposeOrder(config: DashboardConfig, files: map<string, Option<Size>>, logoWidth: nat,
                     native: Size, footerWidth: int)
    ensures InPaintOrder(Compose(config, files, logoWidth, native, footerWidth))
  {
    var head := [BackgroundOp(), MainCardOp()];
    var logoOps := LogoOps(config, files, logoWidth);
    var titleOps := TitleOps(config);
    var chartOps := ChartOps(native);
    var footerOps := FooterOps(config.footer, footerWidth);
    assert InPaintOrder(head) && RanksWithin(head, 0, 1);
    assert InPaintOrder(logoOps) && RanksWithin(logoOps, 2, 2);
    assert RanksWithin(titleOps, 3, 4);
    assert InPaintOrder(chartOps) && RanksWithin(chartOps, 5, 6);
    assert InPaintOrder(footerOps) && RanksWithin(footerOps, 7, 7);
    InPaintOrderConcat(chartOps, footerOps, 5, 6, 7);
    InPaintOrderConcat(titleOps, chartOps + footerOps, 3, 4, 7);
    InPaintOrderConcat(logoOps, titleOps + (chartOps + footerOps), 2, 2, 7);
    InPaintOrderConcat(head, logoOps + (titleOps + (chartOps + footerOps)), 0, 1, 7);
  }

  lemma ComposeStages(config: DashboardConfig, files: map<string, Option<Size>>, logoWidth: nat,
                      native: Size, footerWidth: int)
    ensures var ops := Compose(config, files, logoWidth, native, footerWidth);
            && HasStage(ops, 0) && HasStage(ops, 1) && HasStage(ops, 3) && HasStage(ops, 5) && HasStage(ops, 6)
            && (HasStage(ops, 2) <==> LoadedLogo(config, files, logoWidth).Some?)
            && (HasStage(ops, 4) <==> config.subtitle != "")
            && (HasStage(ops, 7) <==> config.footer != "")
  {
    var head := [BackgroundOp(), MainCardOp()];
    var logoOps := LogoOps(config, files, logoWidth);
    var titleOps := TitleOps(config);
    var chartOps := ChartOps(native);
    var footerOps := FooterOps(config.footer, footerWidth);
    var ops := Compose(config, files, logoWidth, native, footerWidth);
    assert ops == head + (logoOps + (titleOps + (chartOps + footerOps)));
    StagesOf(head, logoOps, titleOps, chartOps, footerOps);
    assert Rank(ops[0]) == 0 && Rank(ops[1]) == 1;
    assert ops[2 + |logoOps|] == titleOps[0];
    assert ops[2 + |logoOps| + |titleOps|] == chartOps[0];
    assert ops[2 + |logoOps| + |titleOps| + 1] == chartOps[1];
    if logoOps != [] { assert ops[2] == logoOps[0]; }
    if config.subtitle != "" { assert ops[2 + |logoOps| + 1] == titleOps[1]; }
    if config.footer != "" { assert ops[|ops| - 1] == footerOps[0]; }
  }

  /** Where in the composed list each stage can come from. */
  lemma StagesOf(head: seq<PaintOp>, logoOps: seq<PaintOp>, titleOps: seq<PaintOp>, chartOps: seq<PaintOp>,
                 footerOps: seq<PaintOp>)
    requires |head| == 2 && Rank(head[0]) == 0 && Rank(head[1]) == 1
    requires forall i :: 0 <= i < |logoOps| ==> Rank(logoOps[i]) == 2
    requires forall i :: 0 <= i < |titleOps| ==> Rank(titleOps[i]) in {3, 4}
    requires forall i :: 0 <= i < |chartOps| ==> Rank(chartOps[i]) in {5, 6}
    requires forall i :: 0 <= i < |footerOps| ==> Rank(footerOps[i]) == 7
    ensures var ops := head + (logoOps + (titleOps + (chartOps + footerOps)));
            && (HasStage(ops, 2) ==> logoOps != [])
            && (HasStage(ops, 4) ==> HasStage(titleOps, 4))
            && (HasStage(ops, 7) ==> footerOps != [])
  {
    var ops := head + (logoOps + (titleOps + (chartOps + footerOps)));
    forall i | 0 <= i < |ops|
      ensures Rank(ops[i]) == 2 ==> logoOps != []
      ensures Rank(ops[i]) == 4 ==> HasStage(titleOps, 4)
      ensures Rank(ops[i]) == 7 ==> footerOps != []
    {
      if i < 2 {
        assert ops[i] == head[i];
      } else if i < 2 + |logoOps| {
        assert ops[i] == logoOps[i - 2];
      } else if i < 2 + |logoOps| + |titleOps| {
        assert ops[i] == titleOps[i - 2 - |logoOps|];
      } else if i < 2 + |logoOps| + |titleOps| + |chartOps| {
        assert ops[i] == chartOps[i - 2 - |logoOps| - |titleOps|];
      } else {
        assert ops[i] == footerOps[i - 2 - |logoOps| - |titleOps| - |chartOps|];
      }
    }
  }

  /** Every composed operation is placed as designed. */
  lemma PlacementOf(config: DashboardConfig, files: map<string, Option<Size>>, logoWidth: nat,
                    native: Size, footerWidth: int)
    ensures var ops := Compose(config, files, logoWidth, native, footerWidth);
            forall i :: 0 <= i < |ops| ==>
              PlacedAsDesigned(ops[i], config, LoadedLogo(config, files, logoWidth), native, footerWidth)
  {
    var logo := LoadedLogo(config, files, logoWidth);
    var parts := [[BackgroundOp(), MainCardOp()], LogoOps(config, files, logoWidth), TitleOps(config),
                  ChartOps(native), FooterOps(config.footer, footerWidth)];
    forall k, i | 0 <= k < |parts| && 0 <= i < |parts[k]|
      ensures PlacedAsDesigned(parts[k][i], config, logo, native, footerWidth)
    {
    }
    var ops := Compose(config, files, logoWidth, native, footerWidth);
    forall i | 0 <= i < |ops|
      ensures PlacedAsDesigned(ops[i], config, logo, native, footerWidth)
    {
      var n0, n1, n2, n3 := |parts[0]|, |parts[1]|, |parts[2]|, |parts[3]|;
      if i < n0 {
        assert ops[i] == parts[0][i];
      } else if i < n0 + n1 {
        assert ops[i] == parts[1][i - n0];
      } else if i < n0 + n1 + n2 {
        assert ops[i] == parts[2][i - n0 - n1];
      } else if i < n0 + n1 + n2 + n3 {
        assert ops[i] == parts[3][i - n0 - n1 - n2];
      } else {
        assert ops[i] == parts[4][i - n0 - n1 - n2 - n3];
      }
    }
  }

  /** The designed placements in pixels: the card image at (16, 16) with its surface at the
      card margin (32, 32), the logo at (1336, 64), title and subtitle at (64, 64) and
      (64, 128), the container at (48, 240) sized 1504 x 420 around the graph at (64, 256),
      which is always 1472 x 388 whatever size the chart was drawn at, and the footer at
      y = 804. */
  lemma PlacementInPixels(op: PaintOp, config: DashboardConfig, logo: Option<Size>, native: Size, footerWidth: int)
    requires PlacedAsDesigned(op, config, logo, native, footerWidth)
    ensures op.Paste? && op.layer == CardWithShadow ==>
      op.x == 16 && op.y == 16 && op.size == Size(1568, 872)
      && op.x + LAYOUT_CONFIG.shadowBlur == LAYOUT_CONFIG.cardMargin
    ensures op.Paste? && op.layer == Logo ==> op.x == 1336 && op.y == 64
    ensures op.Text? && op.role == Title ==> op.x == 64 && op.y == 64 && op.fontSize == 48
    ensures op.Text? && op.role == Subtitle ==> op.x == 64 && op.y == 128 && op.fontSize == 24
    ensures op.Paste? && op.layer == GraphContainer ==> op.x == 48 && op.y == 240 && op.size == Size(1504, 420)
    ensures op.Paste? && op.layer.Graph? ==>
      op.x == 64 && op.y == 256 && op.size == Size(1472, 388)
      && (op.layer.resampled <==> native != Size(1472, 388))
    ensures op.Text? && op.role == Footer ==> op.y == 804 && op.x == (1600 - footerWidth) / 2
  {
    if op.Text? && op.role == Footer {
      Layout.FloorHalfUnique(1600 - footerWidth, op.x);
    }
  }
}

=== FILE: slug.dfy ===
/** `slugify` of src/utils/text_utils.py: drop characters outside letters, digits,
    whitespace and '-', strip, turn each whitespace run into one '-', lowercase. */
module Slug {
  import Decimal

  /** Python's whitespace (`str.isspace`, `str.strip()` and `\s` in a str pattern). */
  predicate IsSpace(c: char)
  {
    var n := c as int;
    || (9 <= n <= 13) || (28 <= n <= 32) || n == 0x85 || n == 0xA0 || n == 0x1680
    || (0x2000 <= n <= 0x200A) || n == 0x2028 || n == 0x2029 || n == 0x202F || n == 0x205F
    || n == 0x3000
  }

  predicate IsAsciiLetter(c: char) { ('a' <= c <= 'z') || ('A' <= c <= 'Z') }

  /** The characters the pattern `[^a-zA-Z0-9\s-]` does not match. */
  predicate IsKept(c: char) { IsAsciiLetter(c) || Decimal.IsDigit(c) || IsSpace(c) || c == '-' }

  /** The characters a slug is made of. */
  predicate IsSlugChar(c: char) { ('a' <= c <= 'z') || ('0' <= c <= '9') || c == '-' }

  predicate IsSlug(s: string) { forall i :: 0 <= i < |s| ==> IsSlugChar(s[i]) }

  predicate AllKept(s: string) { forall i :: 0 <= i < |s| ==> IsKept(s[i]) }

  predicate NoSpace(s: string) { forall i :: 0 <= i < |s| ==> !IsSpace(s[i]) }

  predicate NoHyphen(s: string) { forall i :: 0 <= i < |s| ==> s[i] != '-' }

  /** Step 1, `re.sub(r'[^a-zA-Z0-9\s-]', '', text)`: the kept characters, in order. */
  function RemoveUnsafe(s: string): (r: string)
    ensures |r| <= |s|
    ensures AllKept(r)
    ensures AllKept(s) ==> r == s
    ensures NoHyphen(s) ==> NoHyphen(r)
  {
    if s == [] then []
    else (if IsKept(s[0]) then [s[0]] else []) + RemoveUnsafe(s[1..])
  }

  /** Leading whitespace removed: the longest suffix that starts with a non-space. */
  function TrimStart(s: string): (r: string)
    ensures |r| <= |s| && r == s[|s| - |r|..]
    ensures r == [] || !IsSpace(r[0])
    ensures forall i :: 0 <= i < |s| - |r| ==> IsSpace(s[i])
  {
    if s != [] && IsSpace(s[0]) then
      var r := TrimStart(s[1..]);
      assert s[1..][|s| - 1 - |r|..] == s[|s| - |r|..];
      assert forall i :: 1 <= i < |s| - |r| ==> s[i] == s[1..][i - 1];
      r
    else s
  }

  /** Trailing whitespace removed: the longest prefix that ends with a non-space. */
  function TrimEnd(s: string): (r: string)
    ensures |r| <= |s| && r == s[..|r|]
    ensures r == [] || !IsSpace(r[|r| - 1])
    ensures forall i :: |r| <= i < |s| ==> IsSpace(s[i])
  {
    if s != [] && IsSpace(s[|s| - 1]) then
      var r := TrimEnd(s[..|s| - 1]);
      assert s[..|s| - 1][..|r|] == s[..|r|];
      assert forall i :: |r| <= i < |s| - 1 ==> s[i] == s[..|s| - 1][i];
      r
    else s
  }

  /** Python `str.strip()`: a slice of `s` that neither starts nor ends with whitespace. */
  function Strip(s: string): (r: string)
    ensures |r| <= |s|
    ensures r == [] || (!IsSpace(r[0]) && !IsSpace(r[|r| - 1]))
    ensures AllKept(s) ==> AllKept(r)
    ensures NoHyphen(s) ==> NoHyphen(r)
  {
    var t := TrimStart(s);
    var r := TrimEnd(t);
    assert r == s[|s| - |t|..|s| - |t| + |r|];
    SliceKeeps(s, |s| - |t|, |s| - |t| + |r|);
    r
  }

  /** A slice of a text of kept (hyphen-free) characters is kept (hyphen-free). */
  lemma SliceKeeps(s: string, a: nat, b: nat)
    requires a <= b <= |s|
    ensures AllKept(s) ==> AllKept(s[a..b])
    ensures NoHyphen(s) ==> NoHyphen(s[a..b])
  {
    assert forall i :: 0 <= i < b - a ==> s[a..b][i] == s[a + i];
  }

  /** Step 2, `re.sub(r'\s+', '-', s)`: every maximal whitespace run becomes one '-'.
      The result holds no whitespace, and every other character comes from `s`. */
  function Collapse(s: string): (r: string)
    decreases |s|
    ensures |r| <= |s|
    ensures NoSpace(r)
    ensures AllKept(s) ==> AllKept(r)
  {
    if s == [] then []
    else if IsSpace(s[0]) then
      var t := TrimStart(s);
      assert AllKept(s) ==> AllKept(t) by {
        assert forall i :: 0 <= i < |t| ==> t[i] == s[|s| - |t| + i];
      }
      "-" + Collapse(t)
    else
      [s[0]] + Collapse(s[1..])
  }

  /** ASCII lowercasing of one character. */
  function LowerChar(c: char): char
  {
    if 'A' <= c <= 'Z' then (c as int + 32) as char else c
  }

  /** Step 3, `str.lower()`. Only ASCII letters survive the first two steps, so ASCII
      lowercasing coincides with Python's Unicode lowercasing here. */
  function Lower(s: string): (r: string)
    ensures |r| == |s|
    ensures forall i :: 0 <= i < |s| ==> r[i] == LowerChar(s[i])
  {
    seq(|s|, i requires 0 <= i < |s| => LowerChar(s[i]))
  }

  /** `slugify`: the slug uses only a-z, 0-9 and '-', and is never longer than the title. */
  function Slugify(text: string): (slug: string)
    ensures |slug| <= |text|
    ensures IsSlug(slug)
  {
    var collapsed := Collapse(Strip(RemoveUnsafe(text)));
    LowerKeptIsSlug(collapsed);
    Lower(collapsed)
  }

  /** Lowercasing kept characters other than whitespace yields slug characters. */
  lemma LowerKeptIsSlug(s: string)
    requires AllKept(s) && NoSpace(s)
    ensures IsSlug(Lower(s))
  {
    forall i | 0 <= i < |s|
      ensures IsSlugChar(Lower(s)[i])
    {
      assert IsKept(s[i]) && !IsSpace(s[i]);
    }
  }

  // ---------------------------------------------------------------------------------
  // Properties.

  /** No two adjacent hyphens. */
  predicate NoDoubleHyphen(s: string)
  {
    forall i :: 0 <= i < |s| - 1 ==> !(s[i] == '-' && s[i + 1] == '-')
  }

  /** A string without whitespace is left alone by the run collapsing. */
  lemma {:induction false} CollapseSpaceFree(s: string)
    requires NoSpace(s)
    ensures Collapse(s) == s
    decreases |s|
  {
    if s != [] {
      CollapseSpaceFree(s[1..]);
    }
  }

  /** The first and last characters of the collapsed text: a '-' where the text begins
      (ends) with whitespace, the original character otherwise. */
  lemma {:induction false} CollapseEnds(s: string)
    requires s != []
    ensures Collapse(s) != []
    ensures Collapse(s)[0] == (if IsSpace(s[0]) then '-' else s[0])
    ensures Collapse(s)[|Collapse(s)| - 1] == (if IsSpace(s[|s| - 1]) then '-' else s[|s| - 1])
    decreases |s|
  {
    if IsSpace(s[0]) {
      var t := TrimStart(s);
      if t != [] {
        CollapseEnds(t);
        assert t[|t| - 1] == s[|s| - 1];
      }
    } else if |s| > 1 {
      CollapseEnds(s[1..]);
    }
  }

  /** Prepending a character keeps a text free of doubled hyphens unless it and the first
      character are both '-'. */
  lemma ConsNoDoubleHyphen(c: char, x: string)
    requires NoDoubleHyphen(x)
    requires c != '-' || x == [] || x[0] != '-'
    ensures NoDoubleHyphen([c] + x)
  {
    var y := [c] + x;
    forall i | 0 <= i < |y| - 1
      ensures !(y[i] == '-' && y[i + 1] == '-')
    {
      if i > 0 {
        assert y[i] == x[i - 1] && y[i + 1] == x[i];
      }
    }
  }

  /** Without hyphens in the text, collapsing never yields two adjacent hyphens: a run
      becomes one '-', and the next character is neither whitespace nor '-'. */
  lemma {:induction false} CollapseNoDoubleHyphen(s: string)
    requires NoHyphen(s)
    ensures NoDoubleHyphen(Collapse(s))
    decreases |s|
  {
    if s == [] {
    } else if IsSpace(s[0]) {
      var t := TrimStart(s);
      assert NoHyphen(t) by {
        assert forall i :: 0 <= i < |t| ==> t[i] == s[|s| - |t| + i];
      }
      CollapseNoDoubleHyphen(t);
      if t != [] {
        CollapseEnds(t);
        assert Collapse(t)[0] == t[0] != '-';
      }
      assert Collapse(s) == "-" + Collapse(t);
      ConsNoDoubleHyphen('-', Collapse(t));
    } else {
      var u := s[1..];
      assert NoHyphen(u);
      CollapseNoDoubleHyphen(u);
      assert Collapse(s) == [s[0]] + Collapse(u);
      ConsNoDoubleHyphen(s[0], Collapse(u));
    }
  }

  /** A slug is its own slug. */
  lemma SlugifyFixesSlugs(t: string)
    requires IsSlug(t)
    ensures Slugify(t) == t
  {
    assert AllKept(t) && NoSpace(t);
    assert RemoveUnsafe(t) == t;
    assert Strip(t) == t;
    CollapseSpaceFree(t);
    assert Lower(t) == t;
  }

  /** `slugify` is idempotent. */
  lemma SlugifyIdempotent(text: string)
    ensures Slugify(Slugify(text)) == Slugify(text)
  {
    SlugifyFixesSlugs(Slugify(text));
  }

  /** Collapsing a stripped, hyphen-free text yields no leading, trailing or doubled '-'. */
  lemma CollapseStrippedShape(p: string)
    requires NoHyphen(p)
    requires p == [] || (!IsSpace(p[0]) && !IsSpace(p[|p| - 1]))
    ensures var c := Collapse(p);
            && (c != [] ==> c[0] != '-' && c[|c| - 1] != '-')
            && NoDoubleHyphen(c)
  {
    CollapseNoDoubleHyphen(p);
    if p != [] {
      CollapseEnds(p);
    }
  }

  /** Lowercasing moves no hyphen. */
  lemma LowerKeepsHyphens(s: string)
    ensures forall i :: 0 <= i < |s| ==> (Lower(s)[i] == '-' <==> s[i] == '-')
  {
  }

  /** For a title without hyphens the slug has no leading, trailing or doubled '-'. */
  lemma HyphenFreeTitleSlug(text: string)
    requires NoHyphen(text)
    ensures var slug := Slugify(text);
            && (slug != [] ==> slug[0] != '-' && slug[|slug| - 1] != '-')
            && NoDoubleHyphen(slug)
  {
    var stripped := Strip(RemoveUnsafe(text));
    CollapseStrippedShape(stripped);
    LowerKeepsHyphens(Collapse(stripped));
  }

  // ---------------------------------------------------------------------------------
  // Reference description: words separated by whitespace runs.

  predicate AllSpace(s: string) { forall i :: 0 <= i < |s| ==> IsSpace(s[i]) }

  /** A word: a non-empty run of kept characters without whitespace (it may hold '-'). */
  predicate IsWord(w: string) { w != [] && AllKept(w) && NoSpace(w) }

  /** `words[0] gaps[0] words[1] ... words[n-1]`. */
  function Spaced(words: seq<string>, gaps: seq<string>): string
    requires |words| >= 1 && |gaps| == |words| - 1
    decreases |words|
  {
    if |words| == 1 then words[0]
    else words[0] + (gaps[0] + Spaced(words[1..], gaps[1..]))
  }

  /** `"-".join(words)`. */
  function HyphenJoin(words: seq<string>): string
    requires |words| >= 1
    decreases |words|
  {
    if |words| == 1 then words[0] else words[0] + ("-" + HyphenJoin(words[1..]))
  }

  lemma {:induction false} TrimStartGap(gap: string, rest: string)
    requires AllSpace(gap)
    requires rest != [] && !IsSpace(rest[0])
    ensures TrimStart(gap + rest) == rest
    decreases |gap|
  {
    if gap == [] {
      assert gap + rest == rest;
    } else {
      assert (gap + rest)[1..] == gap[1..] + rest;
      TrimStartGap(gap[1..], rest);
    }
  }

  lemma {:induction false} TrimEndGap(body: string, gap: string)
    requires AllSpace(gap)
    requires body != [] && !IsSpace(body[|body| - 1])
    ensures TrimEnd(body + gap) == body
    decreases |gap|
  {
    if gap == [] {
      assert body + gap == body;
    } else {
      assert (body + gap)[..|body + gap| - 1] == body + gap[..|gap| - 1];
      TrimEndGap(body, gap[..|gap| - 1]);
    }
  }

  lemma {:induction false} CollapseWordThen(w: string, rest: string)
    requires NoSpace(w)
    ensures Collapse(w + rest) == w + Collapse(rest)
    decreases |w|
  {
    if w != [] {
      calc {
        Collapse(w + rest);
        == { CollapseCons(w + rest); assert (w + rest)[1..] == w[1..] + rest; }
        [w[0]] + Collapse(w[1..] + rest);
        == { CollapseWordThen(w[1..], rest); }
        [w[0]] + (w[1..] + Collapse(rest));
        == { assert [w[0]] + w[1..] == w; }
        w + Collapse(rest);
      }
    } else {
      assert w + rest == rest;
    }
  }

  /** A text that starts with a non-space keeps that character in front. */
  lemma CollapseCons(s: string)
    requires s != [] && !IsSpace(s[0])
    ensures Collapse(s) == [s[0]] + Collapse(s[1..])
  {
  }

  lemma CollapseGapThen(gap: string, rest: string)
    requires gap != [] && AllSpace(gap)
    requires rest != [] && !IsSpace(rest[0])
    ensures Collapse(gap + rest) == "-" + Collapse(rest)
  {
    TrimStartGap(gap, rest);
  }

  lemma {:induction false} SpacedShape(words: seq<string>, gaps: seq<string>)
    requires |words| >= 1 && |gaps| == |words| - 1
    requires forall i :: 0 <= i < |words| ==> IsWord(words[i])
    requires forall i :: 0 <= i < |gaps| ==> AllSpace(gaps[i])
    ensures var s := Spaced(words, gaps);
            s != [] && !IsSpace(s[0]) && !IsSpace(s[|s| - 1]) && AllKept(s)
    decreases |words|
  {
    if |words| > 1 {
      var rest := Spaced(words[1..], gaps[1..]);
      SpacedShape(words[1..], gaps[1..]);
      var s := words[0] + (gaps[0] + rest);
      assert s[|s| - 1] == rest[|rest| - 1];
      assert forall i :: 0 <= i < |s| ==> IsKept(s[i]) by {
        forall i | 0 <= i < |s| ensures IsKept(s[i]) {
          if i < |words[0]| {
            assert s[i] == words[0][i];
          } else if i < |words[0]| + |gaps[0]| {
            assert s[i] == gaps[0][i - |words[0]|];
          } else {
            assert s[i] == rest[i - |words[0]| - |gaps[0]|];
          }
        }
      }
    }
  }

  lemma {:induction false} CollapseSpaced(words: seq<string>, gaps: seq<string>)
    requires |words| >= 1 && |gaps| == |words| - 1
    requires forall i :: 0 <= i < |words| ==> IsWord(words[i])
    requires forall i :: 0 <= i < |gaps| ==> gaps[i] != [] && AllSpace(gaps[i])
    ensures Collapse(Spaced(words, gaps)) == HyphenJoin(words)
    decreases |words|
  {
    if |words| == 1 {
      CollapseSpaceFree(words[0]);
    } else {
      var rest := Spaced(words[1..], gaps[1..]);
      SpacedShape(words[1..], gaps[1..]);
      CollapseWordThen(words[0], gaps[0] + rest);
      CollapseGapThen(gaps[0], rest);
      CollapseSpaced(words[1..], gaps[1..]);
    }
  }

  lemma {:induction false} LowerHyphenJoin(words: seq<string>)
    requires |words| >= 1
    ensures Lower(HyphenJoin(words)) == HyphenJoin(seq(|words|, i requires 0 <= i < |words| => Lower(words[i])))
    decreases |words|
  {
    var lowered := seq(|words|, i requires 0 <= i < |words| => Lower(words[i]));
    if |words| > 1 {
      LowerHyphenJoin(words[1..]);
      assert lowered[1..] == seq(|words| - 1, i requires 0 <= i < |words| - 1 => Lower(words[1..][i]));
      var rest := HyphenJoin(words[1..]);
      assert Lower(words[0] + ("-" + rest)) == Lower(words[0]) + ("-" + Lower(rest));
    }
  }

  /** The reference description of `slugify` on a title made of words (letters, digits
      and '-') separated by whitespace runs: leading and trailing whitespace vanishes,
      each interior run becomes exactly one '-', and the words are lowercased. */
  lemma SlugOfSpacedWords(lead: string, words: seq<string>, gaps: seq<string>, trail: string)
    requires |words| >= 1 && |gaps| == |words| - 1
    requires forall i :: 0 <= i < |words| ==> IsWord(words[i])
    requires forall i :: 0 <= i < |gaps| ==> gaps[i] != [] && AllSpace(gaps[i])
    requires AllSpace(lead) && AllSpace(trail)
    ensures Slugify(lead + (Spaced(words, gaps) + trail)) ==
            HyphenJoin(seq(|words|, i requires 0 <= i < |words| => Lower(words[i])))
  {
    var body := Spaced(words, gaps);
    SpacedShape(words, gaps);
    PaddedBody(lead, body, trail);
    CollapseSpaced(words, gaps);
    LowerHyphenJoin(words);
  }

  /** A kept body without whitespace at its ends, padded with whitespace, is kept and
      strips back to the body. */
  lemma PaddedBody(lead: string, body: string, trail: string)
    requires body != [] && !IsSpace(body[0]) && !IsSpace(body[|body| - 1]) && AllKept(body)
    requires AllSpace(lead) && AllSpace(trail)
    ensures RemoveUnsafe(lead + (body + trail)) == lead + (body + trail)
    ensures Strip(lead + (body + trail)) == body
  {
    var text := lead + (body + trail);
    assert AllKept(text) by {
      forall i | 0 <= i < |text| ensures IsKept(text[i]) {
        if i < |lead| {
          assert text[i] == lead[i];
        } else if i < |lead| + |body| {
          assert text[i] == body[i - |lead|];
        } else {
          assert text[i] == trail[i - |lead| - |body|];
        }
      }
    }
    TrimStartGap(lead, body + trail);
    TrimEndGap(body, trail);
  }

  /** Dropped characters play no further part: the slug of a title is the slug of its
      kept characters. */
  lemma SlugIgnoresUnsafe(text: string)
    ensures Slugify(text) == Slugify(RemoveUnsafe(text))
  {
  }

  lemma {:induction false} RemoveUnsafeConcat(a: string, b: string)
    ensures RemoveUnsafe(a + b) == RemoveUnsafe(a) + RemoveUnsafe(b)
    decreases |a|
  {
    if a != [] {
      assert (a + b)[1..] == a[1..] + b;
      RemoveUnsafeConcat(a[1..], b);
    } else {
      assert a + b == b;
    }
  }

  lemma {:induction false} RemoveUnsafeDropsJunk(junk: string)
    requires forall i :: 0 <= i < |junk| ==> !IsKept(junk[i])
    ensures RemoveUnsafe(junk) == []
    decreases |junk|
  {
    if junk != [] {
      RemoveUnsafeDropsJunk(junk[1..]);
    }
  }

  lemma WordsKept(w1: string, w2: string, w3: string, junk: string)
    requires IsWord(w1) && IsWord(w2) && IsWord(w3)
    requires forall i :: 0 <= i < |junk| ==> !IsKept(junk[i])
    ensures RemoveUnsafe(w1 + (" " + (w2 + (junk + (" " + w3))))) == w1 + (" " + (w2 + (" " + w3)))
  {
    var sp := " ";
    RemoveUnsafeConcat(sp, w3);
    RemoveUnsafeConcat(junk, sp + w3);
    RemoveUnsafeConcat(w2, junk + (sp + w3));
    RemoveUnsafeConcat(sp, w2 + (junk + (sp + w3)));
    RemoveUnsafeConcat(w1, sp + (w2 + (junk + (sp + w3))));
    RemoveUnsafeDropsJunk(junk);
    assert RemoveUnsafe(sp) == sp;
    assert [] + (sp + w3) == sp + w3;
  }

  lemma WordsStripped(w1: string, w2: string, w3: string)
    requires IsWord(w1) && IsWord(w2) && IsWord(w3)
    ensures Strip(w1 + (" " + (w2 + (" " + w3)))) == w1 + (" " + (w2 + (" " + w3)))
  {
    var k := w1 + (" " + (w2 + (" " + w3)));
    assert k[0] == w1[0];
    assert k[|k| - 1] == w3[|w3| - 1];
    assert TrimStart(k) == k;
  }

  lemma WordsCollapsed(w1: string, w2: string, w3: string)
    requires IsWord(w1) && IsWord(w2) && IsWord(w3)
    ensures Collapse(w1 + (" " + (w2 + (" " + w3)))) == w1 + ("-" + (w2 + ("-" + w3)))
  {
    var sp := " ";
    assert AllSpace(sp);
    var t3 := sp + w3;
    var t2 := w2 + t3;
    var t1 := sp + t2;
    CollapseSpaceFree(w3);
    CollapseGapThen(sp, w3);
    assert Collapse(t3) == "-" + w3;
    CollapseWordThen(w2, t3);
    assert t2[0] == w2[0];
    CollapseGapThen(sp, t2);
    assert Collapse(t1) == "-" + (w2 + ("-" + w3));
    CollapseWordThen(w1, t1);
  }

  lemma LowerConcat(a: string, b: string)
    ensures Lower(a + b) == Lower(a) + Lower(b)
  {
  }

  /** Three words, single spaces, and characters to drop inside the second gap: the
      shape of the end-to-end example's title. */
  lemma ThreeWords(w1: string, w2: string, w3: string, junk: string)
    requires IsWord(w1) && IsWord(w2) && IsWord(w3)
    requires forall i :: 0 <= i < |junk| ==> !IsKept(junk[i])
    ensures Slugify(w1 + (" " + (w2 + (junk + (" " + w3))))) == Lower(w1) + ("-" + (Lower(w2) + ("-" + Lower(w3))))
  {
    var k := w1 + (" " + (w2 + (" " + w3)));
    var c := w1 + ("-" + (w2 + ("-" + w3)));
    WordsKept(w1, w2, w3, junk);
    WordsStripped(w1, w2, w3);
    WordsCollapsed(w1, w2, w3);
    assert Slugify(w1 + (" " + (w2 + (junk + (" " + w3))))) == Lower(c);
    LowerConcat(w2, "-" + w3);
    LowerConcat("-", w3);
    LowerConcat("-", w2 + ("-" + w3));
    LowerConcat(w1, "-" + (w2 + ("-" + w3)));
    assert Lower("-") == "-";
  }

  lemma SpellOutTitle()
    ensures "CBD" + (" " + ("Market" + ("!!" + (" " + "2024")))) == "CBD Market!! 2024"
    ensures "cbd" + ("-" + ("market" + ("-" + "2024"))) == "cbd-market-2024"
  {
  }

  lemma SpellOutHyphens()
    ensures "a" + (" " + ("-" + ("" + (" " + "b")))) == "a - b"
    ensures "a" + ("-" + ("-" + ("-" + "b"))) == "a---b"
  {
  }

  lemma TitleWords()
    ensures IsWord("CBD") && IsWord("Market") && IsWord("2024")
    ensures forall i :: 0 <= i < |"!!"| ==> !IsKept("!!"[i])
    ensures Lower("CBD") == "cbd" && Lower("Market") == "market" && Lower("2024") == "2024"
  {
  }

  lemma HyphenWords()
    ensures IsWord("a") && IsWord("-") && IsWord("b")
    ensures Lower("a") == "a" && Lower("-") == "-" && Lower("b") == "b"
  {
  }

  /** The title of the end-to-end example. */
  lemma SlugOfExampleTitle(t: string)
    requires t == "CBD Market!! 2024"
    ensures Slugify(t) == "cbd-market-2024"
  {
    TitleWords();
    SpellOutTitle();
    ThreeWords("CBD", "Market", "2024", "!!");
  }

  /** Hyphens already in the title are kept verbatim beside the ones that replace spaces. */
  lemma SlugKeepsHyphens(t: string)
    requires t == "a - b"
    ensures Slugify(t) == "a---b"
  {
    HyphenWords();
    SpellOutHyphens();
    ThreeWords("a", "-", "b", "");
  }
}

=== FILE: stackedbar.dfy ===
/** The decision rules of `StackedBarChart` (src/charts/stacked_bar_chart.py): colour per
    category, stacking of the segments, the value-label rule and the legend. Drawing itself
    belongs to the plotting library and is not modelled; the bars, labels and legend are
    returned as data. */
module StackedBar {
  import opened Wrappers
  import opened JsonValues
  import opened Constants
  import opened MathUtils
  import Slug

  // ---------------------------------------------------------------------------------
  // Category colours (`_get_category_colors`).

  /** `category.lower().replace(' ', '_')`. Lowercasing is ASCII only: the CBD keys use
      only ASCII lowercase letters and '_', and the only non-ASCII character Python
      lowercases to an ASCII one is the Kelvin sign (to 'k', which no key contains), so
      this decides every key lookup as `str.lower` does. */
  function NormaliseCategory(name: string): (key: string)
    ensures |key| == |name|
  {
    seq(|name|, i requires 0 <= i < |name| => if name[i] == ' ' then '_' else Slug.LowerChar(name[i]))
  }

  /** The palette of `get_color_palette()` with its default name. */
  function DefaultPalette(): (p: seq<string>)
    ensures p == PRIMARY_PALETTE && |p| == 5
  {
    if "primary" in CHART_COLORS then CHART_COLORS["primary"] else PRIMARY_PALETTE
  }

  /** The colour of the category at position `i`: its CBD colour when its normalised name
      is a CBD key, else the palette entry at `i` modulo the palette size. */
  function CategoryColour(name: string, i: nat): string
  {
    var key := NormaliseCategory(name);
    if key in CBD_COLORS then CBD_COLORS[key] else DefaultPalette()[i % |DefaultPalette()|]
  }

  /** The loop of `_get_category_colors`: one colour appended per category, the palette
      indexed by the number of colours chosen so far. */
  method GetCategoryColors(categories: seq<string>) returns (colors: seq<string>)
    ensures |colors| == |categories|
    ensures forall i :: 0 <= i < |categories| ==> colors[i] == CategoryColour(categories[i], i)
  {
    colors := [];
    for k := 0 to |categories|
      invariant |colors| == k
      invariant forall i :: 0 <= i < k ==> colors[i] == CategoryColour(categories[i], i)
    {
      var key := NormaliseCategory(categories[k]);
      if key in CBD_COLORS {
        colors := colors + [CBD_COLORS[key]];
      } else {
        var palette := DefaultPalette();
        colors := colors + [palette[|colors| % |palette|]];
      }
    }
  }

  /** The CBD keys are already normalised, so a category spelled exactly as a key, or with
      capitals and spaces in place of underscores, gets that key's colour. */
  lemma CbdKeysAreNormalised()
    ensures forall k :: k in CBD_COLORS ==> NormaliseCategory(k) == k
  {
    assert NormaliseCategory("cbd_oil") == "cbd_oil";
    assert NormaliseCategory("cbd_isolates") == "cbd_isolates";
    assert NormaliseCategory("cbd_concentrates") == "cbd_concentrates";
    assert NormaliseCategory("others") == "others";
  }

  lemma CbdCategoryColour(name: string, i: nat)
    requires name == "CBD Oil"
    ensures CategoryColour(name, i) == "#1F3B4D"
  {
    assert NormaliseCategory(name) == "cbd_oil";
  }

  /** On a miss the palette index is the category's position, not the number of misses
      before it: after one CBD hit, the next unknown category takes palette entry 1. */
  lemma PaletteIndexIsPosition(name: string, i: nat)
    requires NormaliseCategory(name) !in CBD_COLORS
    ensures CategoryColour(name, i) == PRIMARY_PALETTE[i % 5]
    ensures CategoryColour(name, i + 5) == CategoryColour(name, i)
  {
    assert (i + 5) % 5 == i % 5;
  }

  /** Every colour is a CBD colour or a palette colour. */
  lemma ColourFromKnownSets(name: string, i: nat)
    ensures CategoryColour(name, i) in CBD_COLORS.Values || CategoryColour(name, i) in PRIMARY_PALETTE
  {
  }

  // ---------------------------------------------------------------------------------
  // Stacking (the `for i, category in enumerate(categories)` loop of `create_chart`).

  /** One bar segment: bar `x` (the year's position), drawn from `bottom` up by `height`. */
  datatype Segment = Segment(x: int, bottom: real, height: real)

  /** `values` has one row per year and one column per category. */
  predicate Rectangular(values: seq<seq<real>>, categories: nat)
  {
    forall j :: 0 <= j < |values| ==> |values[j]| == categories
  }

  /** The segment of category `i` in bar `j`: it starts where the earlier categories end. */
  function SegmentAt(values: seq<seq<real>>, i: nat, j: nat): Segment
    requires j < |values| && i < |values[j]|
  {
    Segment(j, Sum(values[j][..i]), values[j][i])
  }

  /** The stacking loop: `bottom` starts at zero and after each category is raised by that
      category's column, so each segment starts at the sum of the values below it. */
  method StackBars(values: seq<seq<real>>, categories: nat) returns (bars: seq<seq<Segment>>)
    requires Rectangular(values, categories)
    ensures |bars| == categories
    ensures forall i :: 0 <= i < categories ==> |bars[i]| == |values|
    ensures forall i, j :: 0 <= i < categories && 0 <= j < |values| ==>
              bars[i][j].x == j && bars[i][j].height == values[j][i]
              && bars[i][j].bottom == Sum(values[j][..i])
  {
    var bottom := seq(|values|, _ => 0.0);
    bars := [];
    for i := 0 to categories
      invariant |bottom| == |values| && |bars| == i
      invariant forall j :: 0 <= j < |values| ==> bottom[j] == Sum(values[j][..i])
      invariant forall k :: 0 <= k < i ==> |bars[k]| == |values|
      invariant forall k, j :: 0 <= k < i && 0 <= j < |values| ==> bars[k][j] == SegmentAt(values, k, j)
    {
      var column := seq(|values|, j requires 0 <= j < |values| => Segment(j, bottom[j], values[j][i]));
      forall j | 0 <= j < |values|
        ensures bottom[j] + values[j][i] == Sum(values[j][..i + 1])
      {
        assert values[j][..i + 1] == values[j][..i] + [values[j][i]];
        SumSnoc(values[j][..i], values[j][i]);
      }
      bars := bars + [column];
      bottom := seq(|values|, j requires 0 <= j < |values| => bottom[j] + values[j][i]);
    }
  }

  /** Consecutive segments of a bar touch: each starts where the one below it ends. */
  lemma SegmentsAreContiguous(values: seq<seq<real>>, i: nat, j: nat)
    requires j < |values| && i + 1 < |values[j]|
    ensures SegmentAt(values, i + 1, j).bottom == SegmentAt(values, i, j).bottom + SegmentAt(values, i, j).height
  {
    assert values[j][..i + 1] == values[j][..i] + [values[j][i]];
    SumSnoc(values[j][..i], values[j][i]);
  }

  /** The top segment of a bar ends at that year's total. */
  lemma StackTopIsTotal(values: seq<seq<real>>, j: nat)
    requires j < |values| && values[j] != []
    ensures var top := SegmentAt(values, |values[j]| - 1, j);
            top.bottom + top.height == CalculateTotalValues(values)[j]
  {
    var n := |values[j]|;
    assert values[j][..n - 1] + [values[j][n - 1]] == values[j];
    SumSnoc(values[j][..n - 1], values[j][n - 1]);
  }

  // ---------------------------------------------------------------------------------
  // Value labels (`_add_value_labels`).

  /** A label at (`x`, `y`) showing `value`. */
  datatype Label = Label(x: int, y: real, value: real)

  /** The label test: a positive segment whose share of the bar total is strictly above
      10%. A zero total makes the numpy division infinite, which passes. */
  predicate LabelShown(height: real, total: real)
  {
    height > 0.0 && (total == 0.0 || height / total > 0.1)
  }

  /** The label of category `i` on bar `j`, if any: centred on the bar, halfway up the
      segment. */
  function LabelAt(values: seq<seq<real>>, i: nat, j: nat): (l: Option<Label>)
    requires j < |values| && i < |values[j]|
    ensures l.Some? <==> LabelShown(values[j][i], Sum(values[j]))
    ensures l.Some? ==> l.value.x == j && l.value.value == values[j][i]
    ensures l.Some? ==> Sum(values[j][..i]) < l.value.y < Sum(values[j][..i]) + values[j][i]
  {
    var height := values[j][i];
    if LabelShown(height, Sum(values[j])) then
      Some(Label(j, Sum(values[j][..i]) + height / 2.0, height))
    else None
  }

  /** The labels, category by category and bar by bar. */
  function ValueLabels(values: seq<seq<real>>, categories: nat): (labels: seq<seq<Option<Label>>>)
    requires Rectangular(values, categories)
    ensures |labels| == categories
    ensures forall i :: 0 <= i < categories ==> |labels[i]| == |values|
    ensures forall i, j :: 0 <= i < categories && 0 <= j < |values| ==> labels[i][j] == LabelAt(values, i, j)
  {
    seq(categories, i requires 0 <= i < categories =>
      seq(|values|, j requires 0 <= j < |values| => LabelAt(values, i, j)))
  }

  /** For a positive total the rule is "more than a tenth of the total": a segment at
      exactly 10% gets no label, and one just above it does. */
  lemma LabelRuleIsStrictTenth(height: real, total: real)
    requires total > 0.0
    ensures LabelShown(height, total) <==> height > 0.0 && 10.0 * height > total
  {
    var q := height / total;
    assert q * total == height;
    assert q > 0.1 <==> q * total > 0.1 * total by {
      if q > 0.1 {
        assert (q - 0.1) * total > 0.0;
      }
      if q * total > 0.1 * total {
        assert (q - 0.1) * total > 0.0;
      }
    }
    assert 10.0 * height > total <==> height > 0.1 * total;
  }

  lemma ExactlyTenPercentHasNoLabel(values: seq<seq<real>>, i: nat, j: nat)
    requires j < |values| && i < |values[j]|
    requires Sum(values[j]) > 0.0 && 10.0 * values[j][i] == Sum(values[j])
    ensures LabelAt(values, i, j).None?
  {
    LabelRuleIsStrictTenth(values[j][i], Sum(values[j]));
  }

  /** With non-negative data a positive segment never has a zero total, so the infinite
      ratio cannot arise and the rule is exactly "more than a tenth". */
  lemma NonNegativeLabelRule(values: seq<seq<real>>, i: nat, j: nat)
    requires j < |values| && i < |values[j]|
    requires forall k :: 0 <= k < |values[j]| ==> values[j][k] >= 0.0
    ensures LabelAt(values, i, j).Some? <==> values[j][i] > 0.0 && 10.0 * values[j][i] > Sum(values[j])
  {
    var row := values[j];
    SumBoundsPrefix(row, i + 1);
    SumBoundsPrefix(row, i);
    assert row[..i + 1] == row[..i] + [row[i]];
    SumSnoc(row[..i], row[i]);
    if Sum(row) > 0.0 {
      LabelRuleIsStrictTenth(row[i], Sum(row));
    }
  }

  // ---------------------------------------------------------------------------------
  // The whole chart.

  /** A legend entry: a patch of `colour` labelled `text`. */
  datatype LegendEntry = LegendEntry(colour: string, text: string)

  /** The legend: one entry per category, in category order, in the category's colour. */
  function Legend(categories: seq<string>, colors: seq<string>): (legend: seq<LegendEntry>)
    requires |colors| == |categories|
    ensures |legend| == |categories|
    ensures forall i :: 0 <= i < |categories| ==> legend[i].text == categories[i] && legend[i].colour == colors[i]
  {
    seq(|categories|, i requires 0 <= i < |categories| => LegendEntry(colors[i], categories[i]))
  }

  /** What `create_chart` puts on the axes: tick positions and labels, the coloured
      segments, the value labels and the legend. */
  datatype Plot = Plot(
    ticks: seq<int>,
    tickLabels: seq<Json>,
    colours: seq<string>,
    bars: seq<seq<Segment>>,
    labels: seq<seq<Option<Label>>>,
    legend: seq<LegendEntry>)

  /** With no years `np.array([])` is one-dimensional, so the column index
      `values_array[:, i]` raises as soon as there is a category. */
  datatype PlotError = TooManyIndices

  /** `create_chart` of the stacked bar chart, on data the validator has shaped: one row
      of values per year, one value per category in each row. */
  method CreateStackedBar(years: seq<Json>, categories: seq<string>, values: seq<seq<real>>)
    returns (r: Result<Plot, PlotError>)
    requires |values| == |years| && Rectangular(values, |categories|)
    ensures r.Failure? <==> |years| == 0 && |categories| > 0
    ensures r.Success? ==>
      var p := r.value;
      && |p.ticks| == |years| && (forall j :: 0 <= j < |years| ==> p.ticks[j] == j)
      && p.tickLabels == years
      && |p.colours| == |categories|
      && (forall i :: 0 <= i < |categories| ==> p.colours[i] == CategoryColour(categories[i], i))
      && |p.bars| == |categories|
      && (forall i :: 0 <= i < |categories| ==> |p.bars[i]| == |years|)
      && (forall i, j :: 0 <= i < |categories| && 0 <= j < |years| ==> p.bars[i][j] == SegmentAt(values, i, j))
      && p.labels == ValueLabels(values, |categories|)
      && p.legend == Legend(categories, p.colours)
  {
    if |years| == 0 && |categories| > 0 {
      return Failure(TooManyIndices);
    }
    var ticks := seq(|years|, j requires 0 <= j < |years| => j);
    var colours := GetCategoryColors(categories);
    var bars := StackBars(values, |categories|);
    var labels := ValueLabels(values, |categories|);
    r := Success(Plot(ticks, years, colours, bars, labels, Legend(categories, colours)));
  }
}

=== FILE: uiutils.dfy ===
/** The geometry of the imaging helpers of src/utils/ui_utils.py: the drop shadow, the
    rounded rectangle and the logo loader. Pixels (blur, rasterisation, resampling) are
    not modelled; only sizes and offsets are. */
module UiUtils {
  import opened Wrappers
  import opened Constants

  /** An image size in pixels. */
  datatype Size = Size(width: int, height: int)

  /** Why the imaging library refused to create an image. */
  datatype ImageError = NegativeSize | EmptyRectangle

  // ---------------------------------------------------------------------------------
  // `add_shadow`.

  /** The composite `add_shadow` returns: its size, the rectangle the shadow is drawn in
      (left, top, right, bottom, inclusive as the imaging library draws it), and where the
      source image is pasted. */
  datatype Shadowed = Shadowed(size: Size, rectLeft: int, rectTop: int, rectRight: int, rectBottom: int,
                               pasteX: int, pasteY: int)

  /** `add_shadow(image, offset, blur_radius)`: the canvas grows by the offset and by the
      blur radius on both sides; the shadow rectangle and the image both start at the blur
      radius, so the offset only enlarges the canvas. `Image.new` refuses a negative size. */
  function AddShadow(image: Size, offsetX: int, offsetY: int, blur: int): (r: Result<Shadowed, ImageError>)
    requires image.width >= 0 && image.height >= 0
    ensures r.Failure? <==> image.width + offsetX + 2 * blur < 0 || image.height + offsetY + 2 * blur < 0
    ensures r.Success? ==>
      var s := r.value;
      && s.size == Size(image.width + offsetX + 2 * blur, image.height + offsetY + 2 * blur)
      && s.pasteX == blur && s.pasteY == blur
      // the shadow rectangle's corners differ by exactly the image's size
      && s.rectLeft == s.pasteX && s.rectTop == s.pasteY
      && s.rectRight - s.rectLeft == image.width && s.rectBottom - s.rectTop == image.height
  {
    var shadowWidth := image.width + offsetX + blur * 2;
    var shadowHeight := image.height + offsetY + blur * 2;
    if shadowWidth < 0 || shadowHeight < 0 then Failure(NegativeSize)
    else
      Success(Shadowed(Size(shadowWidth, shadowHeight),
                       blur, blur, shadowWidth - blur - offsetX, shadowHeight - blur - offsetY,
                       blur, blur))
  }

  /** With a non-negative offset the pasted image lies inside the shadow canvas, leaving
      `blur` pixels on the near sides and `blur` plus the offset on the far sides. */
  lemma ShadowContainsImage(image: Size, offsetX: nat, offsetY: nat, blur: nat)
    requires image.width >= 0 && image.height >= 0
    ensures AddShadow(image, offsetX, offsetY, blur).Success?
    ensures var s := AddShadow(image, offsetX, offsetY, blur).value;
            && s.size.width - (s.pasteX + image.width) == blur + offsetX
            && s.size.height - (s.pasteY + image.height) == blur + offsetY
  {
  }

  // ---------------------------------------------------------------------------------
  // `create_rounded_rectangle`.

  /** `create_rounded_rectangle(width, height, radius, fill)`: a transparent image of
      exactly the requested size. The library refuses a negative size (`Image.new`) and an
      empty one, whose bounding box `[0, 0, width - 1, height - 1]` is inverted. */
  function CreateRoundedRectangle(width: int, height: int, radius: int): (r: Result<Size, ImageError>)
    ensures r.Success? <==> width >= 1 && height >= 1
    ensures r.Success? ==> r.value == Size(width, height)
    ensures width < 0 || height < 0 ==> r == Failure(NegativeSize)
  {
    if width < 0 || height < 0 then Failure(NegativeSize)
    else if width - 1 < 0 || height - 1 < 0 then Failure(EmptyRectangle)
    else Success(Size(width, height))
  }

  // ---------------------------------------------------------------------------------
  // `load_and_resize_logo`.

  /** `int(CANVAS_HEIGHT * 0.15)`: 15% of the canvas height. */
  const DEFAULT_LOGO_MAX_HEIGHT: nat := 135

  lemma DefaultMaxHeightIsFifteenPercent()
    ensures DEFAULT_LOGO_MAX_HEIGHT as real == (CANVAS_HEIGHT as real) * LAYOUT_CONFIG.logoMaxHeightRatio
  {
  }

  /** The height limit `load_and_resize_logo` applies: `max_height`, or 15% of the canvas. */
  function LogoLimit(maxHeight: Option<int>): int
  {
    if maxHeight.None? then DEFAULT_LOGO_MAX_HEIGHT else maxHeight.value
  }

  /** `load_and_resize_logo(logo_path, max_height)`. The file system is `files`: a path in
      it exists, and maps to the decoded image's size, or to `None` when opening it raises
      (which the loader catches). The width after scaling is `int(width * ratio)`, a float
      computation, so it is the input `scaledWidth`. The imaging library refuses to resize
      to a zero or negative width or height; the loader catches that too and returns
      `None`. */
  function LoadAndResizeLogo(path: string, maxHeight: Option<int>, files: map<string, Option<Size>>,
                             scaledWidth: nat): (r: Option<Size>)
    ensures path == "" || path !in files ==> r == None
    ensures path in files && files[path] == None ==> r == None
    ensures r.Some? ==> path in files && files[path].Some?
    ensures r.Some? ==>
      var original := files[path].value;
      var limit := LogoLimit(maxHeight);
      && (original.height <= limit ==> r.value == original)
      && (original.height > limit ==> r.value == Size(scaledWidth, limit))
      && r.value.height <= limit
    ensures path != "" && path in files && files[path].Some? ==>
      var original := files[path].value;
      var limit := LogoLimit(maxHeight);
      (r.None? <==> original.height > limit && (limit <= 0 || scaledWidth == 0))
  {
    if path == "" || path !in files then None
    else
      var limit := LogoLimit(maxHeight);
      match files[path]
      case None => None
      case Some(logo) =>
        if logo.height <= limit then Some(logo)
        else if scaledWidth == 0 || limit <= 0 then None
        else Some(Size(scaledWidth, limit))
  }

  /** Loading is idempotent on height: a loaded logo is no taller than the limit, so
      loading it again with the same limit keeps its size. */
  lemma LogoReloadKeepsSize(path: string, other: string, maxHeight: Option<int>,
                            files: map<string, Option<Size>>, scaledWidth: nat)
    requires LoadAndResizeLogo(path, maxHeight, files, scaledWidth).Some?
    requires other != "" && other !in files
    ensures var loaded := LoadAndResizeLogo(path, maxHeight, files, scaledWidth).value;
            LoadAndResizeLogo(other, maxHeight, files[other := Some(loaded)], scaledWidth) == Some(loaded)
  {
  }
}

=== FILE: validation.dfy ===
/** The configuration validator of src/utils/text_utils.py (`validate_config` and its
    per-type helpers): an ordered list of checks whose first failure decides the error. */
module ConfigValidation {
  import opened Wrappers
  import opened JsonValues
  import Constants

  /** The error a failed check raises. `MissingField` carries the dotted field path of the
      message "Missing required field: <path>". */
  datatype ValidationError =
    | MissingField(path: string)
    | NotAnObject(path: string)
    | NoLength(path: string)
    | UnsizedRow
    | ValuesYearsMismatch
    | RowLengthMismatch
    | LabelsValuesMismatch
    | UnsupportedChartType(tag: Json)

  /** The `for field in required_fields` loop: the first absent name raises. */
  function RequireFields(fields: map<string, Json>, prefix: string, names: seq<string>): (r: Outcome<ValidationError>)
    ensures r.Pass? <==> forall i :: 0 <= i < |names| ==> names[i] in fields
    ensures r.Fail? ==> exists i :: 0 <= i < |names| && names[i] !in fields
                          && r.error == MissingField(prefix + names[i])
                          && forall j :: 0 <= j < i ==> names[j] in fields
  {
    if |names| == 0 then Pass
    else if names[0] !in fields then Fail(MissingField(prefix + names[0]))
    else
      var r := RequireFields(fields, prefix, names[1..]);
      if r.Fail? then
        ghost var i :| 0 <= i < |names| - 1 && names[1..][i] !in fields
                       && r.error == MissingField(prefix + names[1..][i])
                       && forall j :: 0 <= j < i ==> names[1..][j] in fields;
        assert names[i + 1] !in fields && forall j :: 0 <= j < i + 1 ==> names[j] in fields;
        r
      else r
  }

  /** The `for year_data in values` loop over an array: each row is measured, then
      `len(categories)` is measured and compared; the first bad row raises. */
  function CheckRowSeq(rows: seq<Json>, categories: Json): (r: Outcome<ValidationError>)
    ensures r.Pass? <==> forall i :: 0 <= i < |rows| ==> Len(rows[i]).Some? && Len(rows[i]) == Len(categories)
    ensures r.Fail? ==> r.error in {UnsizedRow, RowLengthMismatch, NoLength("graph.data.categories")}
  {
    if |rows| == 0 then Pass
    else match Len(rows[0])
      case None => Fail(UnsizedRow)
      case Some(n) =>
        match Len(categories)
        case None => Fail(NoLength("graph.data.categories"))
        case Some(m) =>
          if n != m then Fail(RowLengthMismatch)
          else
            var r := CheckRowSeq(rows[1..], categories);
            assert forall i :: 1 <= i < |rows| ==> rows[i] == rows[1..][i - 1];
            r
  }

  /** The same loop over rows that are all sized (the characters of a string, the keys of
      an object): only the set of their lengths matters. */
  function CheckSizedRows(lengths: set<nat>, categories: Json): (r: Outcome<ValidationError>)
    ensures r.Pass? <==> forall n :: n in lengths ==> Len(categories) == Some(n)
    ensures r.Fail? ==> r.error in {RowLengthMismatch, NoLength("graph.data.categories")}
  {
    if lengths == {} then Pass
    else match Len(categories)
      case None => Fail(NoLength("graph.data.categories"))
      case Some(m) => if lengths == {m} then Pass else Fail(RowLengthMismatch)
  }

  /** Iterating `values`, which the caller has already measured with `len`. */
  function CheckRows(values: Json, categories: Json): (r: Outcome<ValidationError>)
    requires Len(values).Some?
    ensures r.Fail? ==> r.error in {UnsizedRow, RowLengthMismatch, NoLength("graph.data.categories")}
  {
    match values
    case JArr(rows) => CheckRowSeq(rows, categories)
    case JStr(s) => CheckSizedRows(if s == [] then {} else {1}, categories)
    case JObj(fields) => CheckSizedRows(set k | k in fields :: |k|, categories)
  }

  /** `_validate_stacked_bar_data`: an object with `years`, `categories` and `values` (the
      first absent one is reported), as many rows as years, then the row loop. */
  function ValidateStackedBarData(data: Json): (r: Outcome<ValidationError>)
    ensures !data.JObj? ==> r == Fail(NotAnObject("graph.data"))
    ensures data.JObj? && "years" !in data.fields ==> r == Fail(MissingField("graph.data.years"))
    ensures data.JObj? && "years" in data.fields && "categories" !in data.fields ==>
      r == Fail(MissingField("graph.data.categories"))
    ensures data.JObj? && "years" in data.fields && "categories" in data.fields && "values" !in data.fields ==>
      r == Fail(MissingField("graph.data.values"))
    ensures r == Fail(ValuesYearsMismatch) <==>
      && data.JObj? && "years" in data.fields && "categories" in data.fields && "values" in data.fields
      && Len(data.fields["values"]).Some? && Len(data.fields["years"]).Some?
      && Len(data.fields["values"]) != Len(data.fields["years"])
  {
    if !data.JObj? then Fail(NotAnObject("graph.data"))
    else
      var f := data.fields;
      var names := ["years", "categories", "values"];
      assert names[0] == "years" && names[1] == "categories" && names[2] == "values";
      match RequireFields(f, "graph.data.", names)
      case Fail(e) =>
        assert "graph.data." + "years" == "graph.data.years";
        assert "graph.data." + "categories" == "graph.data.categories";
        assert "graph.data." + "values" == "graph.data.values";
        Fail(e)
      case Pass =>
        match Len(f["values"])
        case None => Fail(NoLength("graph.data.values"))
        case Some(nv) =>
          match Len(f["years"])
          case None => Fail(NoLength("graph.data.years"))
          case Some(ny) =>
            if nv != ny then Fail(ValuesYearsMismatch)
            else CheckRows(f["values"], f["categories"])
  }

  /** `_validate_linear_data` (line, area and bar charts). */
  function ValidateLinearData(data: Json): (r: Outcome<ValidationError>)
    ensures r.Pass? <==> WellFormedLabelled(data)
    ensures !data.JObj? ==> r == Fail(NotAnObject("graph.data"))
    ensures data.JObj? && "labels" !in data.fields ==> r == Fail(MissingField("graph.data.labels"))
    ensures data.JObj? && "labels" in data.fields && "values" !in data.fields ==>
      r == Fail(MissingField("graph.data.values"))
  {
    LabelledMeaning(data);
    ValidateLabelledData(data)
  }

  /** `_validate_pie_data`: the same rules as the linear charts. */
  function ValidatePieData(data: Json): (r: Outcome<ValidationError>)
    ensures r.Pass? <==> WellFormedLabelled(data)
    ensures !data.JObj? ==> r == Fail(NotAnObject("graph.data"))
    ensures data.JObj? && "labels" !in data.fields ==> r == Fail(MissingField("graph.data.labels"))
    ensures data.JObj? && "labels" in data.fields && "values" !in data.fields ==>
      r == Fail(MissingField("graph.data.values"))
  {
    LabelledMeaning(data);
    ValidateLabelledData(data)
  }

  /** The shared body of the linear and pie validators: `labels` and `values` present
      and of equal length. */
  function ValidateLabelledData(data: Json): (r: Outcome<ValidationError>)
    ensures !data.JObj? ==> r == Fail(NotAnObject("graph.data"))
    ensures data.JObj? && "labels" !in data.fields ==> r == Fail(MissingField("graph.data.labels"))
    ensures data.JObj? && "labels" in data.fields && "values" !in data.fields ==>
      r == Fail(MissingField("graph.data.values"))
  {
    if !data.JObj? then Fail(NotAnObject("graph.data"))
    else
      var f := data.fields;
      var names := ["labels", "values"];
      assert names[0] == "labels" && names[1] == "values";
      match RequireFields(f, "graph.data.", names)
      case Fail(e) =>
        assert "graph.data." + "labels" == "graph.data.labels";
        assert "graph.data." + "values" == "graph.data.values";
        Fail(e)
      case Pass =>
        match Len(f["labels"])
        case None => Fail(NoLength("graph.data.labels"))
        case Some(nl) =>
          match Len(f["values"])
          case None => Fail(NoLength("graph.data.values"))
          case Some(nv) => if nl != nv then Fail(LabelsValuesMismatch) else Pass
  }

  /** The dispatch on `graph.type`, run only after `type` and `data` are both present. */
  function ValidateByType(tag: Json, data: Json): (r: Outcome<ValidationError>)
    ensures r == Fail(UnsupportedChartType(tag)) <==> !IsSupportedTag(tag)
    ensures r.Fail? && r.error.UnsupportedChartType? ==> r.error.tag == tag
  {
    assert IsSupportedTag(tag) <==>
      tag in [JStr("stacked_bar"), JStr("line"), JStr("pie"), JStr("area"), JStr("bar")];
    if tag == JStr("stacked_bar") then ValidateStackedBarData(data)
    else if tag in [JStr("line"), JStr("area"), JStr("bar")] then ValidateLinearData(data)
    else if tag == JStr("pie") then ValidatePieData(data)
    else Fail(UnsupportedChartType(tag))
  }

  /** `validate_config`: `Pass` is Python's normal return of `None`. The model is a pure
      function, so a passing configuration is used exactly as it was given. */
  function ValidateConfig(config: map<string, Json>): (r: Outcome<ValidationError>)
    ensures "title" in config && "graph" in config && !config["graph"].JObj? ==> r == Fail(NotAnObject("graph"))
    ensures r.Pass? ==>
      && "title" in config && "graph" in config && config["graph"].JObj?
      && "type" in config["graph"].fields && "data" in config["graph"].fields
      && IsSupportedTag(config["graph"].fields["type"])
    ensures r.Fail? && r.error.UnsupportedChartType? ==>
      && "title" in config && "graph" in config && config["graph"].JObj?
      && "type" in config["graph"].fields && "data" in config["graph"].fields
      && r.error.tag == config["graph"].fields["type"] && !IsSupportedTag(r.error.tag)
  {
    match RequireFields(config, "", ["title", "graph"])
    case Fail(e) => Fail(e)
    case Pass =>
      assert "graph" in config by { assert ["title", "graph"][1] == "graph"; }
      match config["graph"]
      case JObj(graph) =>
        if "type" !in graph then Fail(MissingField("graph.type"))
        else if "data" !in graph then Fail(MissingField("graph.data"))
        else ValidateByType(graph["type"], graph["data"])
      case _ => Fail(NotAnObject("graph"))
  }

  // ---------------------------------------------------------------------------------
  // Declarative description of the configurations the validator accepts.

  /** Every row produced by iterating `values` is sized and as long as `categories`. */
  ghost predicate RowsMatch(values: Json, categories: Json)
  {
    forall row :: IsElement(values, row) ==> Len(row).Some? && Len(row) == Len(categories)
  }

  ghost predicate WellFormedStackedBar(data: Json)
  {
    && data.JObj?
    && "years" in data.fields && "categories" in data.fields && "values" in data.fields
    && Len(data.fields["values"]).Some?
    && Len(data.fields["values"]) == Len(data.fields["years"])
    && RowsMatch(data.fields["values"], data.fields["categories"])
  }

  ghost predicate WellFormedLabelled(data: Json)
  {
    && data.JObj?
    && "labels" in data.fields && "values" in data.fields
    && Len(data.fields["labels"]).Some?
    && Len(data.fields["labels"]) == Len(data.fields["values"])
  }

  /** The tags the validator knows, as JSON strings. */
  predicate IsSupportedTag(tag: Json)
  {
    tag.JStr? && tag.s in Constants.SUPPORTED_CHART_TYPES
  }

  ghost predicate WellFormedGraph(tag: Json, data: Json)
  {
    || (tag == JStr("stacked_bar") && WellFormedStackedBar(data))
    || (IsSupportedTag(tag) && tag != JStr("stacked_bar") && WellFormedLabelled(data))
  }

  ghost predicate WellFormedConfig(config: map<string, Json>)
  {
    && "title" in config && "graph" in config
    && config["graph"].JObj?
    && "type" in config["graph"].fields && "data" in config["graph"].fields
    && WellFormedGraph(config["graph"].fields["type"], config["graph"].fields["data"])
  }

  // ---------------------------------------------------------------------------------
  // Properties.

  /** Iterating `values` passes exactly when every row it yields matches `categories`. */
  lemma CheckRowsMeaning(values: Json, categories: Json)
    requires Len(values).Some?
    ensures CheckRows(values, categories).Pass? <==> RowsMatch(values, categories)
  {
    match values
    case JArr(rows) =>
    case JStr(s) =>
      if CheckRows(values, categories).Pass? {
        forall row | IsElement(values, row)
          ensures Len(row).Some? && Len(row) == Len(categories)
        {
          var i :| 0 <= i < |s| && row == JStr([s[i]]);
          assert 1 in (if s == [] then {} else {1});
        }
      }
      if RowsMatch(values, categories) && s != [] {
        assert IsElement(values, JStr([s[0]]));
      }
    case JObj(fields) =>
      var lengths := set k | k in fields :: |k|;
      if CheckRows(values, categories).Pass? {
        forall row | IsElement(values, row)
          ensures Len(row).Some? && Len(row) == Len(categories)
        {
          var k :| k in fields && row == JStr(k);
          assert |k| in lengths;
        }
      }
      if RowsMatch(values, categories) {
        forall n | n in lengths ensures Len(categories) == Some(n) {
          var k :| k in fields && n == |k|;
          assert IsElement(values, JStr(k));
        }
      }
  }

  /** The stacked-bar validator accepts exactly the well-formed stacked-bar payloads. */
  lemma StackedBarMeaning(data: Json)
    ensures ValidateStackedBarData(data).Pass? <==> WellFormedStackedBar(data)
  {
    if data.JObj? {
      var f := data.fields;
      var names := ["years", "categories", "values"];
      assert names[0] == "years" && names[1] == "categories" && names[2] == "values";
      if "years" in f && "categories" in f && "values" in f && Len(f["values"]).Some? {
        CheckRowsMeaning(f["values"], f["categories"]);
      }
    }
  }

  /** The linear/pie validator accepts exactly the well-formed labelled payloads. */
  lemma LabelledMeaning(data: Json)
    ensures ValidateLabelledData(data).Pass? <==> WellFormedLabelled(data)
  {
    if data.JObj? {
      var names := ["labels", "values"];
      assert names[0] == "labels" && names[1] == "values";
    }
  }

  /** `validate_config` returns normally exactly for the well-formed configurations:
      title and graph present, graph an object with type and data, the type one of the
      five supported tags and the data shaped as that type requires. */
  lemma {:induction false} ValidateIffWellFormed(config: map<string, Json>)
    ensures ValidateConfig(config).Pass? <==> WellFormedConfig(config)
  {
    var names := ["title", "graph"];
    assert names[0] == "title" && names[1] == "graph";
    if "title" in config && "graph" in config && config["graph"].JObj? {
      var g := config["graph"].fields;
      if "type" in g && "data" in g {
        StackedBarMeaning(g["data"]);
        LabelledMeaning(g["data"]);
        assert IsSupportedTag(g["type"]) <==>
          g["type"] in [JStr("stacked_bar"), JStr("line"), JStr("pie"), JStr("area"), JStr("bar")];
      }
    }
  }

  /** A tag is accepted for some payload exactly when it is one of the five supported
      tags; any other tag fails with `UnsupportedChartType`, whatever the payload. */
  lemma AcceptedTagsAreSupported(tag: Json)
    ensures (exists data :: ValidateByType(tag, data).Pass?) <==> IsSupportedTag(tag)
    ensures !IsSupportedTag(tag) ==> forall data :: ValidateByType(tag, data) == Fail(UnsupportedChartType(tag))
  {
    if IsSupportedTag(tag) {
      var labelled := JObj(map["labels" := JArr([]), "values" := JArr([])]);
      var stacked := JObj(map["years" := JArr([]), "categories" := JArr([]), "values" := JArr([])]);
      LabelledMeaning(labelled);
      StackedBarMeaning(stacked);
      assert tag.s in ["stacked_bar", "line", "pie", "area", "bar"];
      if tag == JStr("stacked_bar") {
        assert ValidateByType(tag, stacked).Pass?;
      } else {
        assert ValidateByType(tag, labelled).Pass?;
      }
    }
  }

  /** The order of the checks: title, then graph, then graph.type, then graph.data, and
      only then the tag; so an unknown tag with missing data reports the missing data. */
  lemma FirstFailureOrder(config: map<string, Json>)
    ensures "title" !in config ==> ValidateConfig(config) == Fail(MissingField("title"))
    ensures "title" in config && "graph" !in config ==> ValidateConfig(config) == Fail(MissingField("graph"))
    ensures "title" in config && "graph" in config && config["graph"].JObj? ==>
      var g := config["graph"].fields;
      && ("type" !in g ==> ValidateConfig(config) == Fail(MissingField("graph.type")))
      && ("type" in g && "data" !in g ==> ValidateConfig(config) == Fail(MissingField("graph.data")))
      && ("type" in g && "data" in g ==> ValidateConfig(config) == ValidateByType(g["type"], g["data"]))
  {
    var names := ["title", "graph"];
    assert names[0] == "title" && names[1] == "graph";
    assert "" + "title" == "title" && "" + "graph" == "graph";
    if "title" !in config {
      assert RequireFields(config, "", names) == Fail(MissingField("" + "title"));
    } else if "graph" !in config {
      assert RequireFields(config, "", names[1..]) == Fail(MissingField("" + "graph"));
    }
  }

  /** Line, area, bar and pie payloads are held to identical rules (no sign or number check). */
  lemma LinearAndPieAgree(data: Json)
    ensures ValidateLinearData(data) == ValidatePieData(data)
    ensures ValidateByType(JStr("pie"), data) == ValidateByType(JStr("line"), data)
    ensures ValidateByType(JStr("area"), data) == ValidateByType(JStr("bar"), data) == ValidateByType(JStr("line"), data)
  {
  }

  /** Rectangular data passes even when it is empty: no years, or no categories. */
  lemma EmptyRectangularDataPasses(years: seq<Json>, emptyRows: seq<Json>)
    requires forall i :: 0 <= i < |emptyRows| ==> emptyRows[i] == JArr([])
    requires |emptyRows| == |years|
    ensures ValidateStackedBarData(JObj(map["years" := JArr([]), "categories" := JArr([]), "values" := JArr([])])).Pass?
    ensures ValidateStackedBarData(JObj(map["years" := JArr(years), "categories" := JArr([]), "values" := JArr(emptyRows)])).Pass?
  {
    var names := ["years", "categories", "values"];
    assert names[0] == "years" && names[1] == "categories" && names[2] == "values";
  }
}

=== FILE: wrappers.dfy ===
/** Failure-carrying result types shared by every module of the model.
    Python exceptions of the original program become `Failure`/`Fail` values. */
module Wrappers {

  /** A value that may be absent (Python `None`). */
  datatype Option<+T> = None | Some(value: T)

  /** A computation that either produced a value or raised an error. */
  datatype Result<+T, +E> = Success(value: T) | Failure(error: E)

  /** A check that either passed (returned `None` in Python) or raised an error. */
  datatype Outcome<+E> = Pass | Fail(error: E)
}
